=== FILE: README.md ===
# bom-mgmt in Dafny

bom-mgmt works from a bill of materials: a list of artifact descriptors
(plain files, Pivotal Network products and tiles, Docker images, git branches,
my.vmware downloads). The `download` command fetches each artifact into a bits
directory. The `upload` command pushes that directory into a minio bucket. The
`generate-resources` command prints the Concourse `s3` resources that point at
the uploaded objects.

This project models the deterministic core of those three commands.

- The path mapping `GetRelativePath`. Its result is the object key, the local
  path under the bits directory, and the resource's `regexp`.
- The upload command: the pre-flight check, the bucket make-or-own decision,
  the key and local path computation, and the upload loop. Every loop stops at
  the first failure.
- The generate-resources loop.
- The download command:
  - the resource-type dispatch loop and the git archive URL;
  - the "image already present" digest scan and the file layout of
    `DownloadDocker`;
  - entry naming in `Tar`;
  - entry handling in `Untar`.

Paths are sequences of segments (`Paths.Path`). `filepath.Join` of well-formed
segments is concatenation. Go's lexical cleaning is a separate function
(`Paths.Clean`). It is used where the source joins strings that may hold empty
elements, `.` or `..`: tar entry names and extraction targets. `Paths.JoinAll`
is `filepath.Join` on strings, and `RelativePath.GoRelativePath` is the key
string exactly as the program builds it, for any field values. The filesystem,
the object store, the Docker daemon, HTTP and the Pivotal Network CLI are
function-valued parameters that say how each request ends.

- `Upload.Store` covers stat, bucket creation, bucket lookup and puts.
- `Download.Env` covers the credentials file and each acquisition.
- `Archive.FileSystem` is a map from paths to nodes.

`log.Fatalln` and `check` become a failed `Outcome` that ends the run.

Modules, one per file:

- `Outcomes`: the option, result and outcome types.
- `Strings`: the few Go string functions the core uses.
- `Paths`: the path algebra.
- `Bits`: the descriptor records.
- `RelativePath`: model/path.go.
- `FailFast`: the shared stop-at-first-failure loop.
- `Upload`: commands/upload.go.
- `GenerateResources`: commands/generate_resources.go.
- `Download`: the dispatch loop and the Docker rules of commands/download.go.
- `Archive`: `Tar` and `Untar` of commands/download.go.

### Behaviour worth knowing

- The pre-flight check stats only `bitsDir/resources/{resourceType}`. It never
  checks the tile's `-tarball` directory or the artifact file. Its error names
  that directory.
- A failed bucket creation counts as success whenever `BucketExists` reports
  `(true, nil)`, whatever the creation error was.
- Pivotal Network downloads always use the glob `*`. The descriptor's globs
  play no part.
- Git branches are downloaded as a zip file and never extracted.
- `Tar` only requires the directory to exist. It does not require it to be
  non-empty.
- `DownloadDocker` ignores the errors of `os.MkdirAll` (download.go:136),
  `ImageList` (download.go:143), `ContainerExport` and `Untar`
  (download.go:163-164) and `Tar` (download.go:168).

## Model

| member | source | states |
|---|---|---|
| `RelativePath.GetRelativePath` | model/path.go:5-11 | A tile's path has four segments and any other type's has three. The first is always `resources`, the second the resource type, the last the file name. |
| `RelativePath.RelativePathString` | model/path.go:7-10 | As a string the path is `resources/pivnet-tile/{slug}-tarball/{name}` for tiles and `resources/{type}/{name}` otherwise. |
| `RelativePath.DependsOnlyOnKeyFields` | model/path.go:5-11 | Two descriptors get the same path if and only if they agree on type and name, and on product slug when they are tiles. URL, version, globs, image and git fields never matter. |
| `RelativePath.RelativePathValid` | model/path.go:8-10 | With well-formed type, name and slug, every segment is one that `filepath.Join` leaves unchanged. |
| `RelativePath.KeysDistinct` | model/path.go:5-11 | For well-formed descriptors the key strings are equal if and only if the key fields agree, so distinct artifacts never share an object. |
| `RelativePath.GoRelativePathAgrees` | model/path.go:5-11 | For well-formed key fields the key string the program builds with `filepath.Join` is the rendering of the segment list. |
| `RelativePath.GoKeysDistinct` | model/path.go:5-11 | For well-formed descriptors the key strings the program builds are equal if and only if the key fields agree. |
| `RelativePath.EmptyNameDropped` | model/path.go:10 | An empty file name is dropped by `filepath.Join`: the key is the resource-type directory `resources/{type}` itself, not a path below it. |
| `Paths.JoinAllValid` | model/path.go:8-10 | `filepath.Join` of one or more well-formed segments joins them with `/` and changes nothing else. |
| `RelativePath.ResourceTypeDirIsParentUnlessTile` | commands/download.go:40-42 | The download directory `bitsDir/resources/{type}` is the parent of the artifact's local path if and only if the type is not `pivnet-tile`. |
| `RelativePath.ResourceTypeDirAboveArtifact` | commands/upload.go:80 | The directory the pre-flight check stats lies above the artifact's local path: one level for other types, two for tiles. |
| `Bits.ParseKind` | commands/download.go:43-62 | A recognised type tag maps to the kind whose tag it is. An unrecognised one is the tag of no kind. |
| `Bits.ParseTag` | commands/download.go:44-59 | Every kind is recognised from its own tag. |
| `Strings.TrimPrefix` | commands/download.go:293 | With the prefix present, prefix plus result gives back the input. Without it the input is unchanged. |
| `Strings.Before` | commands/generate_resources.go:31 | The result is a prefix of the input with no separator in it. It is followed by the separator or ends the input, and is the whole input when the separator is absent. |
| `Strings.BeforeStopsAtSeparator` | commands/generate_resources.go:31 | Cutting `a + c + b` at the first `c`, for an `a` free of `c`, gives `a`. |
| `Paths.Split` | commands/download.go:230 | Splitting a path string on `/` gives at least one element, none holding a separator. |
| `Paths.RenderSplit` | commands/download.go:136-138 | Joining the split elements with `/` gives back any string. |
| `Paths.SplitRender` | commands/download.go:136-138 | Splitting the rendering of a non-empty path with separator-free segments gives back the path. |
| `Paths.JoinRendered` | commands/upload.go:61-67 | `filepath.Join` of a clean base and the rendering of well-formed segments appends exactly those segments. |
| `Paths.CleanValid` | commands/upload.go:67 | Cleaning a path of well-formed segments changes nothing. |
| `FailFast.Fold` | commands/upload.go:60-73 | Requests are made in order and form a prefix of the input. The run passes if and only if every entry passes. A failure is the last request's answer, and every earlier one passed. |
| `Upload.ValidateBits` | commands/upload.go:78-86 | Passes if and only if no resource-type directory is reported missing, and then every directory has been stat'ed. Otherwise it stops at the first missing one and names it, as `filepath.Join` writes it, followed by `is not present`. Only directories are stat'ed, in order. |
| `Upload.NotPresentNamesDirectory` | commands/upload.go:80-82 | For a directory of well-formed segments the not-present message names it as its segments joined with `/`. |
| `Upload.ProvisionBucketAsWritten` | commands/upload.go:47-57 | Passes if and only if creation succeeds or the bucket is reported owned. Ownership is queried only after a refused creation. A failure then carries `<nil>` when the query itself succeeded, and the query's own error when it failed. |
| `Upload.ProvisionBucket` | commands/upload.go:47-57 | The same pass condition, with the creation error reported on failure. Ownership is queried only after a failed creation. |
| `Upload.BucketStep` | commands/upload.go:47-57 | Either variant asks to create the bucket first and asks about ownership only after a refused creation. It passes if and only if creation succeeds or the bucket is reported owned. |
| `Upload.ProvisionLosesMakeBucketError` | commands/upload.go:50-55 | A refused creation of a bucket reported absent exits with `<nil>` as written, and with the refusal when corrected. |
| `Upload.PutRequestMatchesRelativePath` | commands/upload.go:61-67 | The object key is `GetRelativePath` of the descriptor. The local file is that path under the bits directory, and the bucket and content type are passed through. |
| `Upload.UploadFiles` | commands/upload.go:60-73 | One put per descriptor in manifest order, each with that descriptor's request. Passes if and only if every put succeeds. The first failing put ends the loop with its error. |
| `Upload.Execute` | commands/upload.go:42-73 | The variant `AsWritten` is the code; `Corrected` reports the creation error. Passes if and only if the pre-flight check, the bucket step and every put succeed. A failed pre-flight check makes exactly its own stat calls and no put. After it passes, the calls are its stats followed by the bucket step's calls. A failed bucket step makes no put and ends the run with that step's result, which as written is `<nil>` when creation is refused and the bucket is reported absent. Once both pass, the puts and the result are exactly those of the upload loop `UploadFiles`: every descriptor's request in order, and on failure the last put's own error after earlier puts succeeded. |
| `GenerateResources.ResourceName` | commands/generate_resources.go:31 | The name is the file name up to its first `.`: a prefix without `.`, the whole name when it has none. |
| `GenerateResources.Generate` | commands/generate_resources.go:29-42 | One resource per descriptor in order. Names are cut at the first `.`. `regexp` is the key string `model.GetRelativePath` returns, the type is `s3`, the endpoint is `http://` plus the host, and the credentials and bucket are copied. |
| `GenerateResources.RegExpIsUploadKey` | commands/generate_resources.go:37 | A resource's `regexp` is `filepath.Join` of exactly the key elements the uploader stores the same descriptor under, in the same bucket. For well-formed key fields it is those elements joined with `/`. |
| `Download.Dispatch` | commands/download.go:40-63 | Recognised types give an action and others give `Resource Type '…' is not recognized`. Each kind selects exactly one action with the source's arguments, including the git archive URL and the pivnet `*` glob. |
| `Download.DownloadMeetsUpload` | commands/download.go:40-58 | Files, git archives and image archives are written exactly where the uploader reads them. A pivnet download directory is the parent of that file if and only if the type is `pivnet-non-tile`. |
| `Download.PivnetIgnoresGlobs` | commands/download.go:47-53 | Changing a pivnet descriptor's globs changes nothing dispatched, and the glob is always `*`. |
| `Download.Visits` | commands/download.go:39-64 | The loop visits descriptors in manifest order, one visit each. It passes if and only if every descriptor is acquired, and then it has visited them all. A failure is the last visit's own answer, and every earlier descriptor was acquired. |
| `Download.Execute` | commands/download.go:37-66 | The credentials are written first, and their failure visits nothing. Once they are written, a failed run has visited at least one descriptor. Visits follow manifest order. The run passes if and only if every descriptor is recognised and acquired. A failure is the last visit's answer, and every earlier visit succeeded. |
| `Download.UnrecognizedStopsRun` | commands/download.go:61-62 | An unrecognised type at position k, after k successful turns, ends the run after exactly k + 1 visits with its own message. |
| `Download.Index` | commands/download.go:147 | Returns -1 if and only if the substring does not occur, and otherwise its first occurrence. |
| `Download.ImageFound` | commands/download.go:144-151 | True if and only if some digest of some listed image contains the image name in its part before `@`. |
| `Download.DockerLayoutConsistent` | commands/download.go:135-168 | The root filesystem created, the one extracted into and the metadata all sit inside `path/imageName`. The archive `path/fileName` lies outside that directory unless the two are equal, exactly when the image name is the file name. It is that directory or one of its ancestors exactly when the file name is the image name's first segment, and `os.Create` then fails on a directory. |
| `Archive.EntryNameOfRoot` | commands/download.go:293 | The walked root is archived under the name `.`. |
| `Archive.EntryNameRelative` | commands/download.go:293 | A path `rel` below the walked root is archived under the name `rel`. |
| `Archive.Headers` | commands/download.go:281-296 | Succeeds if and only if every walked path exists and none is a socket. Otherwise the error belongs to the first walked path that is missing or a socket: `lstat` names a missing path, and `tar.FileInfoHeader` refuses a socket with `archive/tar: sockets not supported`. On success it gives one header per walked path, in order, with the relative name, the node's type flag and a regular file's body. |
| `Archive.Tar` | commands/download.go:263-311 | A missing root fails with `Unable to tar files - …`. Otherwise the walk's headers: on success one per walked path, none a socket, with the node's type and an empty link name. |
| `Archive.TargetOfEntryName` | commands/download.go:230 | Extracting an entry named as `Tar` names `directory + rel` writes it to `dst + rel`. |
| `Archive.MkdirAll` | commands/download.go:241-245 | On success the target is a directory, every existing entry is kept, and every new entry is a directory on the way to the target. It fails if and only if the longest part of the path that exists is not a directory, so it succeeds whenever nothing on the way is a non-directory. |
| `Archive.Overwrite` | commands/download.go:249-256 | Writing a body without truncating leaves the body first and the old contents past its end. |
| `Archive.WriteFile` | commands/download.go:249-257 | Opening succeeds if and only if the target is not a directory and its parent is an existing directory. Only the target then changes. |
| `Archive.ApplyEntry` | commands/download.go:229-259 | Only directory and regular-file entries change anything, and only keys on the way to `filepath.Join(dst, name)`. A confined extraction refuses a target outside `dst`. Otherwise a directory entry whose target exists is skipped. One whose target is absent fails if and only if the longest part of the target that exists is not a directory, and every key it adds is a directory. A regular-file entry succeeds if and only if the target can be opened: it is not a directory and its parent is an existing directory. |
| `Archive.UntarWith` | commands/download.go:201-261 | Success only at end of archive, and a read error fails. No key is removed, and every changed key lies on the way to some materialised entry's target. With no directory or regular-file entry nothing changes and the stream's ending is the result. |
| `Archive.UntarPrefix` | commands/download.go:212-258 | Once the first entries have extracted without error, the run is the run of the remaining entries from the filesystem they left. |
| `Archive.UntarChain` | commands/download.go:212-221 | When every entry extracts without error, the run ends in the last filesystem with `nil` at end of archive and with the read error otherwise. |
| `Archive.UntarStopsAt` | commands/download.go:240-252 | The first entry that fails to extract ends the run with its own error, leaving the filesystem the entries before it produced. |
| `Archive.UntarAsWritten` | commands/download.go:201-261 | Extraction as written (no truncation, no confinement). Success only at end of archive, a read error fails, no key is removed, and every changed key lies on the way to some entry's target. For every sequence of filesystems the entries pass through: when all extract, the result is `nil` at end of archive and the read error otherwise; otherwise the first failing entry's error is the result. |
| `Archive.UntarHardened` | commands/download.go:201-261 | The corrected extraction keeps all of those guarantees, and every changed key also lies above or below `dst`. |
| `Archive.UntarLeavesStaleTail` | commands/download.go:249 | A shorter regular file extracted over an existing one keeps the old tail as written. With truncation exactly the body remains. |
| `Archive.TargetOfParentStep` | commands/download.go:230 | Joining `../e` onto a clean destination names `e` beside the destination. |
| `Archive.UntarEscapesDestination` | commands/download.go:230 | An entry `../e` is written outside the destination as written, and refused with nothing changed by the confined extraction. |
| `Archive.UntarConfined` | commands/download.go:201-261 | A confined extraction changes only keys above or below `dst`, whatever the entry names. |
| `Archive.TarUntarRoundTrip` | commands/download.go:201-311 | For either extraction policy, so for `Untar` as written too: the entries `Tar` produces for a walked tree without sockets, extracted into a destination with nothing below it, give a successful run. Every directory and regular file reappears at the same relative path with the same contents. |

## Left out

- Reading and parsing the bill of materials (`GetBom`, strict YAML) is not
  modelled. The descriptors are an input. `download` and `upload` call
  `GetBom` with two arguments while model/bits.go declares one; the model
  sidesteps this.
- YAML marshalling of the resources block and the fixed JSON documents
  (Docker metadata, my.vmware credentials) are library behaviour. Only their
  destinations are modelled.
- The HTTP client, the minio client, the Docker client, the Pivotal Network
  CLI and the my.vmware container are outside the model. Each is the `Store` or
  `Env` parameter, which says only whether a request succeeds. Bytes
  transferred and log lines are not modelled.
- The bodies of `DownloadFile`, `DownloadPivnet`, `DownloadVMWare` and
  `runContainer` are not modelled. Their arguments are (`Download.Dispatch`).
  `Env.perform` says how each ends.
- The ten-minute timeout and the channel `select` in `DownloadVMWare` are
  concurrency and wall-clock time.
- shell/shell.go and the command-line wiring in cmd/ and the command
  registration files are process plumbing.
- The tar and gzip byte encoding is not modelled. Headers carry a name, a type
  flag, a link name and a body only. Mode bits, times and ownership are not
  modelled.
- The order `filepath.Walk` visits paths in is a parameter. `Archive.WalkOf`
  demands only the root first and each parent before its children, not
  lexical order.
- Paths are relative to an abstract root. A leading `/` in the bits directory
  or destination is not modelled.
- Symbolic links followed by `os.Stat`, `os.OpenFile` and `os.MkdirAll` are
  not modelled. A symbolic link node counts as a non-directory.
- RelativePath.GetRelativePath: the segment list is what the program hands to
  `filepath.Join`, which also cleans. For an empty, `.` or `..` field, or one
  holding `/`, the program's string differs from the segments' rendering.
  `RelativePath.GoRelativePath` is the cleaned string, equal to the rendering
  for well-formed fields (`RelativePath.GoRelativePathAgrees`);
  `RelativePath.EmptyNameDropped` shows the empty-name case.
- RelativePath.RelativePathString: states the rendering of the segment list
  for any fields. The program's cleaned key equals it only for well-formed
  fields (`RelativePath.GoRelativePathAgrees`).
- RelativePath.DependsOnlyOnKeyFields: is about the segment list for any
  fields. For the program's cleaned key string the same equivalence is proved
  for well-formed fields only (`RelativePath.GoKeysDistinct`); with malformed
  fields distinct descriptors can share a key (an empty name and a name `.`).
- Upload.PutRequestFor: the key and the local file are the element lists the
  loop hands to `filepath.Join` (nested joins as written, which clean to the
  same string as one join). The program's strings are `Paths.JoinAll` of
  them; for malformed fields two lists can name the same object.
- Upload.Store: `stat` and `putObject` are asked about element lists, so the
  model can tell apart two lists that Go cleans to the same path.
- Download.Dispatch: builds its paths from the segment list, so it inherits
  the well-formed-fields caveat of `RelativePath.GetRelativePath`.
- Archive.TarUntarRoundTrip: holds at the level of tar entries. `Tar` writes a
  gzip stream (download.go:274) while `Untar` reads a raw tar stream, its gzip
  reader being commented out (download.go:203-209). So the program's `Untar`
  cannot read what its `Tar` writes; the program never feeds one to the other,
  as `Untar` reads a container export. The walk is also required to hold no
  socket, since `Tar` fails on one.
- Archive.MkdirAll: on failure the filesystem is left unchanged. Go may
  already have created some directories on the way.
- Archive.UntarWith: the stream can only break between entries. A read error
  while copying a body (download.go:256-257) is not modelled, and neither is
  closing the files opened in the loop (deferred until return).
- Download.Execute: the `os.MkdirAll` of the resource-type directory
  (download.go:41) is recorded in each visit, but its error is never
  consulted, because the source ignores it.
- Download.DockerLayoutConsistent: covers where `DownloadDocker` puts things.
  The sequence of Docker calls is not modelled, and neither are the errors
  it ignores: those of `os.MkdirAll` (download.go:136), `ImageList`
  (download.go:143), `ContainerExport` and `Untar` (download.go:163-164) and
  `Tar` (download.go:168).
- Download.ImageFound: takes the listed images as input. A failing
  `ImageList` is not modelled.

## Findings

| source | as written | input that shows it | evidently intended | confidence | as-written member | corrected member |
|---|---|---|---|---|---|---|
| commands/upload.go:50-55 | `exists, err :=` declares a new `err` that shadows the `MakeBucket` error, so the fatal log prints the `BucketExists` error, which is nil when that call succeeded | `MakeBucket` fails with "Access Denied."; `BucketExists` returns `(false, nil)`; the run exits with the message `<nil>` | report why creating the bucket failed | high, by reading; not executed | `Upload.ProvisionBucketAsWritten`, used by `Upload.Execute` with `AsWritten`, shown by `Upload.ProvisionLosesMakeBucketError` | `Upload.ProvisionBucket`, used by `Upload.Execute` with `Corrected` |
| commands/download.go:249 | regular files are opened with `O_CREATE\|O_RDWR` and no `O_TRUNC` | extract a 2-byte file over an existing 5-byte file of the same name; bytes 3-5 of the old file remain | the extracted file holds exactly the entry's body, so a re-run overwrites cleanly | high, by reading; not executed | `Archive.UntarAsWritten`, shown by `Archive.UntarLeavesStaleTail` | `Archive.UntarHardened` |
| commands/download.go:230 | the target is `filepath.Join(dst, header.Name)` with no check that it stays inside `dst` | an exported archive holding a regular-file entry `../e` writes `e` beside `dst` | entries land inside the destination, and an escaping entry is refused | medium (the archive comes from a local container export); not executed | `Archive.UntarAsWritten`, shown by `Archive.UntarEscapesDestination` | `Archive.UntarHardened`, with `Archive.UntarConfined` |

=== FILE: archive.dfy ===
/** `Tar` and `Untar` of commands/download.go over an abstract filesystem:
    the name each walked file gets in the archive, which entries extraction
    materialises and where, and how it ends. The byte encoding of tar and
    gzip is not part of this model. */
module Archive {
  import opened Outcomes
  import opened Strings
  import opened Paths

  type Bytes = seq<bv8>

  /** What a filesystem path holds. */
  datatype Node = Dir | File(data: Bytes) | Symlink(target: string) | Special | Socket

  /** Paths (relative to an abstract root, which always exists as a
      directory) to what they hold. */
  type FileSystem = map<Path, Node>

  /** The tar type flags the model distinguishes. */
  datatype EntryType = TypeDir | TypeReg | TypeSymlink | TypeOther

  /** One tar entry: its header fields and, for a regular file, its body. */
  datatype Header = Header(name: string, typeflag: EntryType, linkname: string, body: Bytes)

  /** `tar.FileInfoHeader`'s type flag for a node. */
  function TypeOf(n: Node): EntryType {
    match n
    case Dir => TypeDir
    case File(_) => TypeReg
    case Symlink(_) => TypeSymlink
    case Special => TypeOther
    case Socket => TypeOther
  }

  // ---------------------------------------------------------------- Tar

  /** The archive name of a walked path: the walked root's prefix trimmed off
      and the rest joined onto `.`. */
  function EntryName(directory: Path, walked: Path): string {
    var rest := TrimPrefix(Render(walked), Render(directory));
    CleanRender(["."] + Split(rest))
  }

  /** The header `Tar` writes for one walked path. The link target the walk
      reads for a symbolic link never reaches the header: the link name is
      always empty. */
  function HeaderFor(directory: Path, walked: Path, node: Node): Header {
    Header(EntryName(directory, walked), TypeOf(node), "", if node.File? then node.data else [])
  }

  /** The error `os.Stat` or `os.Lstat` gives for a missing path. */
  function NoSuchFile(op: string, p: Path): string {
    op + " " + Render(p) + ": no such file or directory"
  }

  /** `tar.FileInfoHeader`'s error for a socket, fatal through `check`. */
  const SocketsNotSupported := "archive/tar: sockets not supported"

  /** A walked path no header can be made for: it vanished, or it is a
      socket. */
  predicate Unreadable(fs: FileSystem, p: Path) {
    p !in fs || fs[p].Socket?
  }

  /** The error for an unreadable walked path: `os.Lstat`'s, or
      `tar.FileInfoHeader`'s for a socket. */
  function UnreadableError(fs: FileSystem, p: Path): string {
    if p !in fs then NoSuchFile("lstat", p) else SocketsNotSupported
  }

  /** Walked path `i` is the first unreadable one. */
  predicate FirstUnreadable(fs: FileSystem, walked: seq<Path>, i: int) {
    && 0 <= i < |walked|
    && Unreadable(fs, walked[i])
    && forall j | 0 <= j < i :: !Unreadable(fs, walked[j])
  }

  /** A readable path in front keeps the first unreadable one first. */
  lemma FirstUnreadableShifts(fs: FileSystem, walked: seq<Path>)
    requires walked != [] && !Unreadable(fs, walked[0])
    ensures forall i | FirstUnreadable(fs, walked[1..], i) ::
      FirstUnreadable(fs, walked, i + 1) && walked[i + 1] == walked[1..][i]
  {
    assert forall j | 0 <= j < |walked[1..]| :: walked[1..][j] == walked[j + 1];
  }

  /** The headers of the walk in order; a path that vanished during the walk
      is fatal. */
  function Headers(directory: Path, walked: seq<Path>, fs: FileSystem): (r: Result<seq<Header>>)
    ensures r.Ok? <==> forall i | 0 <= i < |walked| :: !Unreadable(fs, walked[i])
    ensures r.Ok? ==> |r.value| == |walked|
    ensures r.Ok? ==> forall i | 0 <= i < |walked| :: r.value[i] == HeaderFor(directory, walked[i], fs[walked[i]])
    ensures r.Err? ==> exists i :: FirstUnreadable(fs, walked, i) && r.msg == UnreadableError(fs, walked[i])
  {
    if walked == [] then Ok([])
    else if walked[0] !in fs then
      assert FirstUnreadable(fs, walked, 0);
      Err(NoSuchFile("lstat", walked[0]))
    else if fs[walked[0]].Socket? then
      assert FirstUnreadable(fs, walked, 0);
      Err(SocketsNotSupported)
    else
      match Headers(directory, walked[1..], fs)
      case Err(m) =>
        FirstUnreadableShifts(fs, walked);
        Err(m)
      case Ok(hs) => Ok([HeaderFor(directory, walked[0], fs[walked[0]])] + hs)
  }

  /** `Tar(directory, ...)` given the paths `filepath.Walk` visits: the root
      must exist, then one header per visited path, each with an empty link
      name. */
  function Tar(directory: Path, walked: seq<Path>, fs: FileSystem): (r: Result<seq<Header>>)
    ensures directory != [] && directory !in fs ==>
      r == Err("Unable to tar files - " + NoSuchFile("stat", directory))
    ensures directory == [] || directory in fs ==> r == Headers(directory, walked, fs)
    ensures r.Ok? ==> |r.value| == |walked| && forall i | 0 <= i < |walked| ::
      && walked[i] in fs
      && !fs[walked[i]].Socket?
      && r.value[i].typeflag == TypeOf(fs[walked[i]])
      && r.value[i].linkname == ""
  {
    if directory != [] && directory !in fs then Err("Unable to tar files - " + NoSuchFile("stat", directory))
    else Headers(directory, walked, fs)
  }

  /** The walked root itself is named `.`. */
  lemma EntryNameOfRoot(directory: Path)
    ensures EntryName(directory, directory) == "."
  {
    var d := Render(directory);
    assert TrimPrefix(d, d) == "";
    assert Split("") == [""];
    assert CleanFrom([], [".", ""]) == [];
  }

  /** Trimming the root's rendering off a path below it leaves a separator
      and the relative rest. */
  lemma TrimRoot(directory: Path, rel: Path)
    requires |directory| >= 1 && |rel| >= 1
    ensures TrimPrefix(Render(directory + rel), Render(directory)) == "/" + Render(rel)
  {
    RenderAppend(directory, rel);
    TrimBeforeSeparator(Render(directory), "/", Render(rel));
  }

  /** `filepath.Join(".", "/" + r)` for a well-formed relative path is `r`. */
  lemma JoinDotSlash(rel: Path)
    requires |rel| >= 1 && ValidPath(rel)
    ensures CleanRender(["."] + Split("/" + Render(rel))) == Render(rel)
  {
    var r := Render(rel);
    SplitLeadingSlash(r);
    SplitRender(rel);
    PrependDot(Split("/" + r), rel);
    CleanDotEmpty(rel);
  }

  /** `.` in front of an empty element and a path. Kept apart from the
      path lemmas so that this sequence step is solved in a small context. */
  lemma PrependDot(t: Path, rel: Path)
    requires t == [""] + rel
    ensures ["."] + t == [".", ""] + rel
  {
  }

  /** The elements `.` and the empty string vanish in front of a well-formed
      path. */
  lemma CleanDotEmpty(rel: Path)
    requires ValidPath(rel)
    ensures Clean([".", ""] + rel) == rel
  {
    CleanFromSkips([], [".", ""], rel);
    CleanValid(rel);
  }

  /** A path `rel` below the walked root gets the archive name `rel`, and the
      root itself gets `.`. */
  lemma EntryNameRelative(directory: Path, rel: Path)
    requires |directory| >= 1 && ValidPath(rel)
    ensures EntryName(directory, directory + rel) == (if rel == [] then "." else Render(rel))
  {
    if rel == [] {
      assert directory + rel == directory;
      EntryNameOfRoot(directory);
    } else {
      TrimRoot(directory, rel);
      JoinDotSlash(rel);
    }
  }

  // -------------------------------------------------------------- Untar

  /** How the entry stream ended: at the end of the archive, or with a read
      error. */
  datatype StreamEnd = AtEof | Broken(msg: string)

  /** What a run of `Untar` left behind and returned. */
  datatype UntarRun = UntarRun(fs: FileSystem, result: Outcome)

  /** Where an entry is extracted: `filepath.Join(dst, name)`. */
  function Target(dst: Path, name: string): Path {
    Join(dst, name)
  }

  /** The only entry kinds `Untar` creates anything for. */
  predicate Materialised(t: EntryType) {
    t == TypeDir || t == TypeReg
  }

  /** `os.MkdirAll`: each missing directory on the way is created; an
      existing non-directory on the way is an error. */
  function MkdirAll(fs: FileSystem, p: Path): (r: Result<FileSystem>)
    ensures r.Ok? ==> p == [] || (p in r.value && r.value[p].Dir?)
    ensures r.Ok? ==> forall k | k in fs :: k in r.value && r.value[k] == fs[k]
    ensures r.Ok? ==> forall k | k in r.value && k !in fs :: IsPrefix(k, p) && r.value[k].Dir?
    ensures DirsOnTheWay(fs, p) ==> r.Ok?
    ensures r.Err? <==> exists j :: BlockedAt(fs, p, j)
    decreases |p|
  {
    if p == [] then Ok(fs)
    else if p in fs then
      assert p[..|p|] == p;
      if fs[p].Dir? then Ok(fs)
      else
        assert BlockedAt(fs, p, |p|);
        Err("mkdir " + Render(p) + ": not a directory")
    else
      var parent := p[..|p| - 1];
      assert forall j | 0 < j <= |parent| :: parent[..j] == p[..j];
      assert p[..|p|] == p;
      assert forall j :: BlockedAt(fs, p, j) <==> BlockedAt(fs, parent, j);
      match MkdirAll(fs, parent)
      case Err(m) => Err(m)
      case Ok(made) => Ok(made[p := Dir])
  }

  /** `p[..j]` is the longest part of `p` that exists, and it is not a
      directory: `os.MkdirAll` stops there with "not a directory". */
  predicate BlockedAt(fs: FileSystem, p: Path, j: int) {
    && 0 < j <= |p|
    && p[..j] in fs && !fs[p[..j]].Dir?
    && forall k | j < k <= |p| :: p[..k] !in fs
  }

  /** Nothing on the way to `p`, `p` included, is a non-directory. */
  predicate DirsOnTheWay(fs: FileSystem, p: Path) {
    forall j | 0 < j <= |p| :: p[..j] in fs ==> fs[p[..j]].Dir?
  }

  /** Writing `body` from offset 0 over `previous` without truncating: whatever
      of `previous` lies past the body's end stays. */
  function Overwrite(previous: Bytes, body: Bytes): (r: Bytes)
    ensures |r| == if |previous| <= |body| then |body| else |previous|
    ensures r[..|body|] == body
    ensures forall i | |body| <= i < |r| :: r[i] == previous[i]
  {
    if |previous| <= |body| then body else body + previous[|body|..]
  }

  /** Which of the two repairs an extraction applies: truncating regular
      files it opens, and refusing targets outside the destination. */
  datatype Policy = Policy(truncate: bool, confine: bool)

  /** `Untar` as written. */
  const AsWritten := Policy(false, false)

  /** `Untar` with both repairs. */
  const Hardened := Policy(true, true)

  /** The contents the file at `target` has after one regular-file entry. */
  function Written(policy: Policy, fs: FileSystem, target: Path, body: Bytes): Bytes {
    if !policy.truncate && target in fs && fs[target].File? then Overwrite(fs[target].data, body) else body
  }

  /** `os.OpenFile(target, O_CREATE|O_RDWR)` can open `target`: it is not a
      directory, and its parent is an existing directory. */
  predicate CanOpen(fs: FileSystem, target: Path) {
    && target != []
    && (target in fs ==> !fs[target].Dir?)
    && (|target| == 1 || (target[..|target| - 1] in fs && fs[target[..|target| - 1]].Dir?))
  }

  /** `os.OpenFile(target, O_CREATE|O_RDWR)` followed by copying the body. */
  function WriteFile(policy: Policy, fs: FileSystem, target: Path, body: Bytes): (r: Result<FileSystem>)
    ensures r.Ok? ==> r.value == fs[target := File(Written(policy, fs, target, body))]
    ensures r.Ok? <==> CanOpen(fs, target)
  {
    if target == [] || (target in fs && fs[target].Dir?) then Err("open " + Render(target) + ": is a directory")
    else
      var parent := target[..|target| - 1];
      if parent != [] && parent !in fs then Err(NoSuchFile("open", target))
      else if parent != [] && !fs[parent].Dir? then Err("open " + Render(target) + ": not a directory")
      else Ok(fs[target := File(Written(policy, fs, target, body))])
  }

  /** The message a confined extraction gives for an escaping entry. */
  function IllegalPath(name: string): string {
    "illegal file path: " + name
  }

  /** The policy lets an entry be extracted to `target`. */
  predicate Allowed(policy: Policy, dst: Path, target: Path) {
    !policy.confine || IsPrefix(dst, target)
  }

  /** One entry of the extraction loop. */
  function ApplyEntry(policy: Policy, dst: Path, h: Header, fs: FileSystem): (r: Result<FileSystem>)
    ensures !Materialised(h.typeflag) ==> r == Ok(fs)
    ensures h.typeflag == TypeDir && Allowed(policy, dst, Target(dst, h.name)) && Target(dst, h.name) in fs ==>
      r == Ok(fs)
    ensures h.typeflag == TypeDir && Allowed(policy, dst, Target(dst, h.name)) && DirsOnTheWay(fs, Target(dst, h.name)) ==>
      r.Ok?
    ensures h.typeflag == TypeDir && Allowed(policy, dst, Target(dst, h.name)) && Target(dst, h.name) !in fs ==>
      (r.Err? <==> exists j :: BlockedAt(fs, Target(dst, h.name), j))
    ensures h.typeflag == TypeDir && r.Ok? ==> forall k | k in r.value && k !in fs :: r.value[k] == Dir
    ensures h.typeflag == TypeReg && Allowed(policy, dst, Target(dst, h.name)) ==>
      (r.Ok? <==> CanOpen(fs, Target(dst, h.name)))
    ensures r.Ok? ==> forall k | k in fs :: k in r.value
    ensures r.Ok? ==> forall k | k in r.value && (k !in fs || r.value[k] != fs[k]) ::
      Materialised(h.typeflag) && IsPrefix(k, Target(dst, h.name))
    ensures policy.confine && Materialised(h.typeflag) && !IsPrefix(dst, Target(dst, h.name)) ==>
      r == Err(IllegalPath(h.name))
    ensures policy.confine && Materialised(h.typeflag) && r.Ok? ==> IsPrefix(dst, Target(dst, h.name))
    ensures h.typeflag == TypeDir && r.Ok? ==>
      Target(dst, h.name) == [] || Target(dst, h.name) in r.value
    ensures h.typeflag == TypeReg && r.Ok? ==>
      && Target(dst, h.name) in r.value
      && r.value[Target(dst, h.name)] == File(Written(policy, fs, Target(dst, h.name), h.body))
  {
    var target := Target(dst, h.name);
    if !Materialised(h.typeflag) then Ok(fs)
    else if policy.confine && !IsPrefix(dst, target) then Err(IllegalPath(h.name))
    else if h.typeflag == TypeDir then
      if target in fs then Ok(fs) else MkdirAll(fs, target)
    else WriteFile(policy, fs, target, h.body)
  }

  /** Every key `Untar` created or changed lies on the way to the target of
      some directory or regular-file entry. */
  predicate Touched(dst: Path, entries: seq<Option<Header>>, k: Path) {
    exists i | 0 <= i < |entries| ::
      && entries[i].Some?
      && Materialised(entries[i].value.typeflag)
      && IsPrefix(k, Target(dst, entries[i].value.name))
  }

  /** The extraction loop over the entries `tar.Reader.Next` yields (`None`
      for a nil header), then the way the stream ended. */
  function UntarWith(policy: Policy, dst: Path, entries: seq<Option<Header>>, end: StreamEnd, fs: FileSystem): (r: UntarRun)
    ensures r.result.Pass? ==> end.AtEof?
    ensures end.Broken? ==> r.result.Fail?
    ensures (forall i | 0 <= i < |entries| :: entries[i].None? || !Materialised(entries[i].value.typeflag)) ==>
      r == UntarRun(fs, EndResult(end))
    ensures forall k | k in fs :: k in r.fs
    ensures forall k | k in r.fs && (k !in fs || r.fs[k] != fs[k]) :: Touched(dst, entries, k)
    decreases |entries|
  {
    if entries == [] then UntarRun(fs, EndResult(end))
    else
      match entries[0]
      case None =>
        var r := UntarWith(policy, dst, entries[1..], end, fs);
        TouchedLater(dst, entries, r.fs, fs);
        assert forall i | 0 <= i < |entries[1..]| :: entries[1..][i] == entries[i + 1];
        r
      case Some(h) =>
        match ApplyEntry(policy, dst, h, fs)
        case Err(m) => UntarRun(fs, Fail(m))
        case Ok(next) =>
          var r := UntarWith(policy, dst, entries[1..], end, next);
          assert forall i | 0 <= i < |entries[1..]| :: entries[1..][i] == entries[i + 1];
          TouchedStep(dst, entries, fs, next, r.fs);
          r
  }

  /** Keys changed by the rest of the loop were touched by the whole loop. */
  lemma TouchedLater(dst: Path, entries: seq<Option<Header>>, after: FileSystem, before: FileSystem)
    requires |entries| > 0
    requires forall k | k in after && (k !in before || after[k] != before[k]) :: Touched(dst, entries[1..], k)
    ensures forall k | k in after && (k !in before || after[k] != before[k]) :: Touched(dst, entries, k)
  {
    forall k | k in after && (k !in before || after[k] != before[k])
      ensures Touched(dst, entries, k)
    {
      var i :| 0 <= i < |entries[1..]| && entries[1..][i].Some? && Materialised(entries[1..][i].value.typeflag)
        && IsPrefix(k, Target(dst, entries[1..][i].value.name));
      assert entries[i + 1] == entries[1..][i];
    }
  }

  /** Keys changed by the first entry or by the rest of the loop were touched
      by the whole loop. */
  lemma TouchedStep(dst: Path, entries: seq<Option<Header>>, fs: FileSystem, next: FileSystem, after: FileSystem)
    requires |entries| > 0 && entries[0].Some?
    requires forall k | k in next && (k !in fs || next[k] != fs[k]) ::
      Materialised(entries[0].value.typeflag) && IsPrefix(k, Target(dst, entries[0].value.name))
    requires forall k | k in fs :: k in next
    requires forall k | k in after && (k !in next || after[k] != next[k]) :: Touched(dst, entries[1..], k)
    ensures forall k | k in after && (k !in fs || after[k] != fs[k]) :: Touched(dst, entries, k)
  {
    TouchedLater(dst, entries, after, next);
    forall k | k in after && (k !in fs || after[k] != fs[k])
      ensures Touched(dst, entries, k)
    {
      if k in next && (k !in fs || next[k] != fs[k]) {
        assert Materialised(entries[0].value.typeflag) && IsPrefix(k, Target(dst, entries[0].value.name));
      }
    }
  }

  /** What `Untar` returns once the entries are used up: nil at the end of
      the archive, the read error otherwise. */
  function EndResult(end: StreamEnd): Outcome {
    match end
    case AtEof => Pass
    case Broken(m) => Fail(m)
  }

  /** Entry `e` takes the filesystem from `before` to `after`: a nil header
      is skipped, any other entry is extracted without error. */
  predicate StepsTo(policy: Policy, dst: Path, e: Option<Header>, before: FileSystem, after: FileSystem) {
    if e.None? then after == before else ApplyEntry(policy, dst, e.value, before) == Ok(after)
  }

  /** `states[0]`, `states[1]`, ... are the filesystems after each of the
      first `|states| - 1` entries, all extracted without error. */
  predicate Reaches(policy: Policy, dst: Path, entries: seq<Option<Header>>, states: seq<FileSystem>) {
    && 1 <= |states| <= |entries| + 1
    && forall m | 0 <= m < |states| - 1 :: StepsTo(policy, dst, entries[m], states[m], states[m + 1])
  }

  /** Once the first entries have extracted cleanly, the run is the run of
      the remaining entries from the filesystem they left. */
  lemma {:induction false} UntarPrefix(policy: Policy, dst: Path, entries: seq<Option<Header>>, end: StreamEnd, states: seq<FileSystem>)
    requires Reaches(policy, dst, entries, states)
    ensures UntarWith(policy, dst, entries, end, states[0])
            == UntarWith(policy, dst, entries[|states| - 1..], end, states[|states| - 1])
    decreases |states|
  {
    if |states| > 1 {
      var rest := states[1..];
      assert StepsTo(policy, dst, entries[0], states[0], states[1]);
      assert Reaches(policy, dst, entries[1..], rest) by {
        forall m | 0 <= m < |rest| - 1
          ensures StepsTo(policy, dst, entries[1..][m], rest[m], rest[m + 1])
        {
          assert StepsTo(policy, dst, entries[m + 1], states[m + 1], states[m + 2]);
        }
      }
      UntarPrefix(policy, dst, entries[1..], end, rest);
      assert entries[1..][|rest| - 1..] == entries[|states| - 1..];
    }
  }

  /** Every entry extracting cleanly, each from the filesystem the previous
      one left, ends the run in the last filesystem with the stream's own
      ending: success at the end of the archive, the read error otherwise. */
  lemma UntarChain(policy: Policy, dst: Path, entries: seq<Option<Header>>, end: StreamEnd, states: seq<FileSystem>)
    requires Reaches(policy, dst, entries, states) && |states| == |entries| + 1
    ensures UntarWith(policy, dst, entries, end, states[0]) == UntarRun(states[|entries|], EndResult(end))
  {
    UntarPrefix(policy, dst, entries, end, states);
  }

  /** The first entry that fails to extract ends the run with its own error,
      leaving the filesystem the entries before it produced. */
  lemma UntarStopsAt(policy: Policy, dst: Path, entries: seq<Option<Header>>, end: StreamEnd, states: seq<FileSystem>)
    requires Reaches(policy, dst, entries, states) && |states| <= |entries|
    requires entries[|states| - 1].Some?
    requires ApplyEntry(policy, dst, entries[|states| - 1].value, states[|states| - 1]).Err?
    ensures UntarWith(policy, dst, entries, end, states[0])
            == UntarRun(states[|states| - 1], Fail(ApplyEntry(policy, dst, entries[|states| - 1].value, states[|states| - 1]).msg))
  {
    UntarPrefix(policy, dst, entries, end, states);
  }

  /** Run `r` ends as the entries dictate, for every sequence of
      filesystems they pass through from `fs`: when all of them extract, in
      the last filesystem with the stream's own ending; otherwise with the
      error of the first entry that fails, in the filesystem before it. */
  ghost predicate EndsAsEntriesDictate(policy: Policy, dst: Path, entries: seq<Option<Header>>, end: StreamEnd, fs: FileSystem, r: UntarRun) {
    && (forall states | Reaches(policy, dst, entries, states) && states[0] == fs && |states| == |entries| + 1 ::
          r == UntarRun(states[|entries|], EndResult(end)))
    && (forall states | Reaches(policy, dst, entries, states) && states[0] == fs && |states| <= |entries|
                        && entries[|states| - 1].Some?
                        && ApplyEntry(policy, dst, entries[|states| - 1].value, states[|states| - 1]).Err? ::
          r == UntarRun(states[|states| - 1], Fail(ApplyEntry(policy, dst, entries[|states| - 1].value, states[|states| - 1]).msg)))
  }

  /** Both ways a run can end, for every sequence of filesystems the entries
      pass through. */
  lemma UntarEnds(policy: Policy, dst: Path, entries: seq<Option<Header>>, end: StreamEnd, fs: FileSystem)
    ensures EndsAsEntriesDictate(policy, dst, entries, end, fs, UntarWith(policy, dst, entries, end, fs))
  {
    forall states | Reaches(policy, dst, entries, states) && states[0] == fs && |states| == |entries| + 1
      ensures UntarWith(policy, dst, entries, end, fs) == UntarRun(states[|entries|], EndResult(end))
    {
      UntarChain(policy, dst, entries, end, states);
    }
    forall states | Reaches(policy, dst, entries, states) && states[0] == fs && |states| <= |entries|
                    && entries[|states| - 1].Some?
                    && ApplyEntry(policy, dst, entries[|states| - 1].value, states[|states| - 1]).Err?
      ensures UntarWith(policy, dst, entries, end, fs)
              == UntarRun(states[|states| - 1], Fail(ApplyEntry(policy, dst, entries[|states| - 1].value, states[|states| - 1]).msg))
    {
      UntarStopsAt(policy, dst, entries, end, states);
    }
  }

  /** `Untar(dst, r)` as written. */
  function UntarAsWritten(dst: Path, entries: seq<Option<Header>>, end: StreamEnd, fs: FileSystem): (r: UntarRun)
    ensures r.result.Pass? ==> end.AtEof?
    ensures end.Broken? ==> r.result.Fail?
    ensures forall k | k in fs :: k in r.fs
    ensures forall k | k in r.fs && (k !in fs || r.fs[k] != fs[k]) :: Touched(dst, entries, k)
    ensures EndsAsEntriesDictate(AsWritten, dst, entries, end, fs, r)
  {
    UntarEnds(AsWritten, dst, entries, end, fs);
    UntarWith(AsWritten, dst, entries, end, fs)
  }

  /** `Untar` with truncation and confinement to `dst`. */
  function UntarHardened(dst: Path, entries: seq<Option<Header>>, end: StreamEnd, fs: FileSystem): (r: UntarRun)
    ensures r.result.Pass? ==> end.AtEof?
    ensures end.Broken? ==> r.result.Fail?
    ensures forall k | k in fs :: k in r.fs
    ensures forall k | k in r.fs && (k !in fs || r.fs[k] != fs[k]) :: Touched(dst, entries, k) && (IsPrefix(dst, k) || IsPrefix(k, dst))
    ensures EndsAsEntriesDictate(Hardened, dst, entries, end, fs, r)
  {
    UntarConfined(Hardened, dst, entries, end, fs);
    UntarEnds(Hardened, dst, entries, end, fs);
    UntarWith(Hardened, dst, entries, end, fs)
  }

  /** Extracting an entry named as `Tar` names `directory + rel` puts it at
      `dst + rel`; the root entry `.` lands on `dst` itself. */
  lemma TargetOfEntryName(directory: Path, rel: Path, dst: Path)
    requires |directory| >= 1 && SlashFree(directory) && ValidPath(rel) && ValidPath(dst)
    ensures Target(dst, EntryName(directory, directory + rel)) == dst + rel
  {
    EntryNameRelative(directory, rel);
    if rel == [] {
      assert Split(".") == ["."];
      CleanFromAppend([], dst, ["."]);
      CleanValid(dst);
      assert CleanFrom(dst, ["."]) == dst;
      assert dst + rel == dst;
    } else {
      JoinRendered(dst, rel);
    }
  }

  /** A one-segment name joined onto a clean destination lands directly
      inside it. */
  lemma TargetChild(dst: Path, e: string)
    requires ValidPath(dst) && ValidSegment(e)
    ensures Target(dst, e) == dst + [e]
  {
    assert Before(e, '/') == e;
    assert ValidPath(dst + [e]);
    CleanValid(dst + [e]);
  }

  /** A regular-file entry extracted over a longer existing file keeps the
      old file's tail when extraction does not truncate, and leaves exactly
      the entry's body when it does. */
  lemma UntarLeavesStaleTail(dst: Path, e: string, previous: Bytes, body: Bytes, fs: FileSystem)
    requires |dst| >= 1 && ValidPath(dst) && ValidSegment(e)
    requires dst in fs && fs[dst].Dir?
    requires dst + [e] in fs && fs[dst + [e]] == File(previous) && |body| < |previous|
    ensures UntarAsWritten(dst, [Some(Header(e, TypeReg, "", body))], AtEof, fs)
            == UntarRun(fs[dst + [e] := File(body + previous[|body|..])], Pass)
    ensures UntarHardened(dst, [Some(Header(e, TypeReg, "", body))], AtEof, fs)
            == UntarRun(fs[dst + [e] := File(body)], Pass)
  {
    var h := Header(e, TypeReg, "", body);
    var t := dst + [e];
    TargetChild(dst, e);
    assert t[..|t| - 1] == dst;
    assert IsPrefix(dst, t);
    var stale := fs[t := File(body + previous[|body|..])];
    var exact := fs[t := File(body)];
    assert ApplyEntry(AsWritten, dst, h, fs) == Ok(stale);
    assert ApplyEntry(Hardened, dst, h, fs) == Ok(exact);
    assert [Some(h)][1..] == [];
    assert UntarWith(AsWritten, dst, [], AtEof, stale) == UntarRun(stale, Pass);
    assert UntarWith(Hardened, dst, [], AtEof, exact) == UntarRun(exact, Pass);
  }

  /** `../e` joined onto a clean destination names `e` beside it. */
  lemma TargetOfParentStep(dst: Path, e: string)
    requires |dst| >= 1 && ValidPath(dst) && ValidSegment(e)
    ensures Target(dst, ".." + "/" + e) == Parent(dst) + [e]
  {
    var p: Path := ["..", e];
    assert Render(p) == ".." + "/" + Render([e]);
    SplitRender(p);
    CleanFromAppend([], dst, p);
    CleanValid(dst);
    assert CleanStep(dst, "..") == Parent(dst);
    assert p[1..] == [e];
    assert CleanFrom(dst, p) == CleanFrom(Parent(dst), [e]);
    assert ValidPath(Parent(dst) + [e]);
    CleanFromValid(Parent(dst), [e]);
  }

  /** A regular-file entry named `../e` is written beside the destination by
      the code as written, and refused, with nothing changed, by the
      confined extraction. */
  lemma UntarEscapesDestination(dst: Path, e: string, body: Bytes, fs: FileSystem)
    requires |dst| >= 1 && ValidPath(dst) && ValidSegment(e) && e != dst[|dst| - 1]
    requires |dst| == 1 || (Parent(dst) in fs && fs[Parent(dst)].Dir?)
    requires Parent(dst) + [e] !in fs
    ensures !IsPrefix(dst, Parent(dst) + [e])
    ensures UntarAsWritten(dst, [Some(Header(".." + "/" + e, TypeReg, "", body))], AtEof, fs)
            == UntarRun(fs[Parent(dst) + [e] := File(body)], Pass)
    ensures UntarHardened(dst, [Some(Header(".." + "/" + e, TypeReg, "", body))], AtEof, fs)
            == UntarRun(fs, Fail(IllegalPath(".." + "/" + e)))
  {
    var name := ".." + "/" + e;
    var h := Header(name, TypeReg, "", body);
    var t := Parent(dst) + [e];
    TargetOfParentStep(dst, e);
    assert t[..|t| - 1] == Parent(dst);
    var escaped := fs[t := File(body)];
    assert ApplyEntry(AsWritten, dst, h, fs) == Ok(escaped);
    assert [Some(h)][1..] == [];
    assert UntarWith(AsWritten, dst, [], AtEof, escaped) == UntarRun(escaped, Pass);
  }

  /** Paths on the way to a target below `dst` are above or below `dst`. */
  lemma Comparable(dst: Path, k: Path, target: Path)
    requires IsPrefix(dst, target) && IsPrefix(k, target)
    ensures IsPrefix(dst, k) || IsPrefix(k, dst)
  {
    if |k| <= |dst| {
      assert dst[..|k|] == target[..|k|];
    } else {
      assert k[..|dst|] == target[..|dst|];
    }
  }

  /** A confined extraction creates or changes nothing but `dst`'s ancestors
      and what lies below `dst`, whatever the archive's entry names. */
  lemma {:induction false} UntarConfined(policy: Policy, dst: Path, entries: seq<Option<Header>>, end: StreamEnd, fs: FileSystem)
    requires policy.confine
    ensures forall k | k in UntarWith(policy, dst, entries, end, fs).fs &&
                       (k !in fs || UntarWith(policy, dst, entries, end, fs).fs[k] != fs[k]) ::
      IsPrefix(dst, k) || IsPrefix(k, dst)
    decreases |entries|
  {
    if entries != [] {
      var r := UntarWith(policy, dst, entries, end, fs);
      match entries[0]
      case None =>
        UntarConfined(policy, dst, entries[1..], end, fs);
      case Some(h) =>
        match ApplyEntry(policy, dst, h, fs)
        case Err(_) =>
        case Ok(next) =>
          UntarConfined(policy, dst, entries[1..], end, next);
          forall k | k in next && (k !in fs || next[k] != fs[k])
            ensures IsPrefix(dst, k) || IsPrefix(k, dst)
          {
            Comparable(dst, k, Target(dst, h.name));
          }
    }
  }

  // ------------------------------------------------- Tar, then Untar

  /** The parent of walk entry `i` is an earlier entry, and a directory. */
  predicate ParentListed(directory: Path, rels: seq<Path>, fs: FileSystem, i: int)
    requires 0 <= i < |rels|
  {
    && |rels[i]| >= 1
    && exists j | 0 <= j < i :: rels[j] == Parent(rels[i]) && directory + rels[j] in fs && fs[directory + rels[j]].Dir?
  }

  /** `rels` is what `filepath.Walk(directory, ...)` visits, relative to
      `directory`: the root first, then distinct well-formed paths that all
      exist, each after its parent directory. */
  predicate WalkOf(directory: Path, rels: seq<Path>, fs: FileSystem) {
    && |rels| >= 1 && rels[0] == []
    && directory in fs && fs[directory].Dir?
    && (forall i | 0 <= i < |rels| :: ValidPath(rels[i]) && directory + rels[i] in fs && !fs[directory + rels[i]].Socket?)
    && (forall i, j | 0 <= i < j < |rels| :: rels[i] != rels[j])
    && (forall i | 0 < i < |rels| :: ParentListed(directory, rels, fs, i))
  }

  /** The walked paths themselves. */
  function Walked(directory: Path, rels: seq<Path>): seq<Path> {
    seq(|rels|, i requires 0 <= i < |rels| => directory + rels[i])
  }

  /** An archive's headers as the reader yields them. */
  function Entries(hs: seq<Header>): seq<Option<Header>> {
    seq(|hs|, i requires 0 <= i < |hs| => Some(hs[i]))
  }

  /** Nothing lies strictly below `dst` yet. */
  predicate Fresh(fs: FileSystem, dst: Path) {
    forall k | k in fs :: !(IsPrefix(dst, k) && |k| > |dst|)
  }

  /** Everything the round trip assumes. */
  predicate RoundTripReady(directory: Path, rels: seq<Path>, fs: FileSystem, dst: Path, fs0: FileSystem) {
    && |directory| >= 1 && SlashFree(directory) && WalkOf(directory, rels, fs)
    && |dst| >= 1 && ValidPath(dst) && dst in fs0 && fs0[dst] == Dir && Fresh(fs0, dst)
  }

  /** What extracting the first `n` walk entries should leave: the
      directories and regular files copied under `dst`. */
  function Extracted(directory: Path, rels: seq<Path>, fs: FileSystem, dst: Path, fs0: FileSystem, n: nat): FileSystem
    requires n <= |rels|
    requires forall i | 0 <= i < |rels| :: directory + rels[i] in fs
  {
    if n == 0 then fs0
    else
      var prev := Extracted(directory, rels, fs, dst, fs0, n - 1);
      var node := fs[directory + rels[n - 1]];
      if node.Dir? || node.File? then prev[dst + rels[n - 1] := node] else prev
  }

  /** Appending to a common prefix is injective. */
  lemma AppendInjective(dst: Path, a: Path, b: Path)
    requires dst + a == dst + b
    ensures a == b
  {
    assert a == (dst + a)[|dst|..];
    assert b == (dst + b)[|dst|..];
  }

  /** An entry already extracted stays as it was. */
  lemma {:induction false} ExtractedKeeps(directory: Path, rels: seq<Path>, fs: FileSystem, dst: Path, fs0: FileSystem, j: nat, n: nat)
    requires RoundTripReady(directory, rels, fs, dst, fs0)
    requires j < n <= |rels|
    requires fs[directory + rels[j]].Dir? || fs[directory + rels[j]].File?
    ensures dst + rels[j] in Extracted(directory, rels, fs, dst, fs0, n)
    ensures Extracted(directory, rels, fs, dst, fs0, n)[dst + rels[j]] == fs[directory + rels[j]]
    decreases n
  {
    if j < n - 1 {
      ExtractedKeeps(directory, rels, fs, dst, fs0, j, n - 1);
      if dst + rels[n - 1] == dst + rels[j] {
        AppendInjective(dst, rels[n - 1], rels[j]);
      }
    }
  }

  /** An entry not yet extracted is absent, except the root `dst`. */
  lemma {:induction false} ExtractedAbsent(directory: Path, rels: seq<Path>, fs: FileSystem, dst: Path, fs0: FileSystem, m: nat, n: nat)
    requires RoundTripReady(directory, rels, fs, dst, fs0)
    requires 0 < m < |rels| && n <= m
    ensures dst + rels[m] !in Extracted(directory, rels, fs, dst, fs0, n)
    decreases n
  {
    if n == 0 {
      assert |rels[m]| >= 1 by { assert ParentListed(directory, rels, fs, m); }
      assert IsPrefix(dst, dst + rels[m]);
    } else {
      ExtractedAbsent(directory, rels, fs, dst, fs0, m, n - 1);
      if dst + rels[n - 1] == dst + rels[m] {
        AppendInjective(dst, rels[n - 1], rels[m]);
      }
    }
  }

  /** Extracting the root entry `.` changes nothing. */
  lemma ApplyRoot(policy: Policy, directory: Path, rels: seq<Path>, fs: FileSystem, dst: Path, fs0: FileSystem, h: Header)
    requires RoundTripReady(directory, rels, fs, dst, fs0)
    requires h == HeaderFor(directory, directory + rels[0], fs[directory + rels[0]])
    ensures ApplyEntry(policy, dst, h, fs0) == Ok(Extracted(directory, rels, fs, dst, fs0, 1))
  {
    TargetOfEntryName(directory, [], dst);
    assert directory + rels[0] == directory && dst + rels[0] == dst;
    assert Target(dst, h.name) == dst;
    assert fs0[dst := Dir] == fs0;
  }

  /** Extracting an entry for a path not yet present, whose parent is a
      directory, adds exactly that entry's directory or file. */
  lemma ApplyFresh(policy: Policy, dst: Path, h: Header, e: FileSystem, parent: Path, leaf: string, node: Node)
    requires Target(dst, h.name) == parent + [leaf] && IsPrefix(dst, parent + [leaf])
    requires |parent| >= 1 && parent + [leaf] !in e
    requires parent in e && e[parent] == Dir
    requires h.typeflag == TypeOf(node) && (node.File? ==> h.body == node.data)
    ensures ApplyEntry(policy, dst, h, e) == Ok(if node.Dir? || node.File? then e[parent + [leaf] := node] else e)
  {
    var target := parent + [leaf];
    assert target[..|target| - 1] == parent;
    if node.Dir? {
      assert MkdirAll(e, parent) == Ok(e);
      assert MkdirAll(e, target) == Ok(e[target := Dir]);
    } else if node.File? {
      assert WriteFile(policy, e, target, node.data) == Ok(e[target := node]);
    }
  }

  /** Before walk entry `n > 0` is extracted, its copy is absent and its
      parent's copy is an extracted directory. */
  lemma ExtractedParent(directory: Path, rels: seq<Path>, fs: FileSystem, dst: Path, fs0: FileSystem, n: nat)
    requires RoundTripReady(directory, rels, fs, dst, fs0)
    requires 0 < n < |rels|
    ensures |rels[n]| >= 1
    ensures dst + rels[n] !in Extracted(directory, rels, fs, dst, fs0, n)
    ensures dst + Parent(rels[n]) in Extracted(directory, rels, fs, dst, fs0, n)
    ensures Extracted(directory, rels, fs, dst, fs0, n)[dst + Parent(rels[n])] == Dir
  {
    assert ParentListed(directory, rels, fs, n);
    var j :| 0 <= j < n && rels[j] == Parent(rels[n]) && fs[directory + rels[j]].Dir?;
    ExtractedKeeps(directory, rels, fs, dst, fs0, j, n);
    ExtractedAbsent(directory, rels, fs, dst, fs0, n, n);
  }

  /** `dst + rel` is `dst` followed by the parent of `rel` and its last
      segment. */
  lemma ParentUnder(dst: Path, rel: Path)
    requires |rel| >= 1
    ensures dst + rel == dst + Parent(rel) + [rel[|rel| - 1]]
    ensures IsPrefix(dst, dst + rel)
  {
    assert rel == Parent(rel) + [rel[|rel| - 1]];
  }

  /** Walk entry `n > 0` meets everything `ApplyFresh` asks of an entry. */
  lemma WalkedFresh(directory: Path, rels: seq<Path>, fs: FileSystem, dst: Path, fs0: FileSystem, h: Header, n: nat)
    requires RoundTripReady(directory, rels, fs, dst, fs0)
    requires 0 < n < |rels|
    requires h == HeaderFor(directory, directory + rels[n], fs[directory + rels[n]])
    ensures |rels[n]| >= 1
    ensures Target(dst, h.name) == dst + rels[n] && IsPrefix(dst, dst + rels[n])
    ensures dst + rels[n] == dst + Parent(rels[n]) + [rels[n][|rels[n]| - 1]]
    ensures dst + rels[n] !in Extracted(directory, rels, fs, dst, fs0, n)
    ensures dst + Parent(rels[n]) in Extracted(directory, rels, fs, dst, fs0, n)
    ensures Extracted(directory, rels, fs, dst, fs0, n)[dst + Parent(rels[n])] == Dir
  {
    TargetOfEntryName(directory, rels[n], dst);
    ExtractedParent(directory, rels, fs, dst, fs0, n);
    ParentUnder(dst, rels[n]);
  }

  /** Extracting walk entry `n > 0` adds exactly that entry's directory or
      file under `dst`. */
  lemma ApplyWalked(policy: Policy, directory: Path, rels: seq<Path>, fs: FileSystem, dst: Path, fs0: FileSystem, h: Header, n: nat)
    requires RoundTripReady(directory, rels, fs, dst, fs0)
    requires 0 < n < |rels|
    requires h == HeaderFor(directory, directory + rels[n], fs[directory + rels[n]])
    ensures ApplyEntry(policy, dst, h, Extracted(directory, rels, fs, dst, fs0, n))
            == Ok(Extracted(directory, rels, fs, dst, fs0, n + 1))
  {
    WalkedFresh(directory, rels, fs, dst, fs0, h, n);
    ApplyFresh(policy, dst, h, Extracted(directory, rels, fs, dst, fs0, n),
               dst + Parent(rels[n]), rels[n][|rels[n]| - 1], fs[directory + rels[n]]);
  }

  /** The headers `Tar` writes for a walk, one per walked path. */
  lemma TarOfWalk(directory: Path, rels: seq<Path>, fs: FileSystem)
    requires WalkOf(directory, rels, fs)
    ensures Tar(directory, Walked(directory, rels), fs).Ok?
    ensures |Tar(directory, Walked(directory, rels), fs).value| == |rels|
    ensures forall i | 0 <= i < |rels| ::
      Tar(directory, Walked(directory, rels), fs).value[i] == HeaderFor(directory, directory + rels[i], fs[directory + rels[i]])
  {
    var walked := Walked(directory, rels);
    assert forall i | 0 <= i < |walked| :: walked[i] in fs;
  }

  /** The filesystems the round trip passes through. */
  lemma ExtractionStates(directory: Path, rels: seq<Path>, fs: FileSystem, dst: Path, fs0: FileSystem) returns (states: seq<FileSystem>)
    requires RoundTripReady(directory, rels, fs, dst, fs0)
    ensures |states| == |rels| + 1
    ensures forall m | 0 <= m <= |rels| :: states[m] == Extracted(directory, rels, fs, dst, fs0, m)
  {
    states := seq(|rels| + 1, m requires 0 <= m <= |rels| => Extracted(directory, rels, fs, dst, fs0, m));
  }

  /** Every walk entry extracts cleanly from the state the previous left. */
  lemma ExtractionSteps(policy: Policy, directory: Path, rels: seq<Path>, fs: FileSystem, dst: Path, fs0: FileSystem,
                        hs: seq<Header>, states: seq<FileSystem>)
    requires RoundTripReady(directory, rels, fs, dst, fs0)
    requires |hs| == |rels|
    requires forall i | 0 <= i < |rels| :: hs[i] == HeaderFor(directory, directory + rels[i], fs[directory + rels[i]])
    requires |states| == |rels| + 1
    requires forall m | 0 <= m <= |rels| :: states[m] == Extracted(directory, rels, fs, dst, fs0, m)
    ensures forall m | 0 <= m < |hs| :: ApplyEntry(policy, dst, hs[m], states[m]) == Ok(states[m + 1])
  {
    forall m | 0 <= m < |hs|
      ensures ApplyEntry(policy, dst, hs[m], states[m]) == Ok(states[m + 1])
    {
      if m == 0 {
        ApplyRoot(policy, directory, rels, fs, dst, fs0, hs[0]);
      } else {
        ApplyWalked(policy, directory, rels, fs, dst, fs0, hs[m], m);
      }
    }
  }

  /** Tarring a walked tree and extracting the archive's entries into a
      destination with nothing below it yet succeeds and reproduces every
      directory and regular file at the same relative path, under either
      extraction policy, so for `Untar` as written too; symbolic links and
      special files are not extracted. */
  lemma TarUntarRoundTrip(policy: Policy, directory: Path, rels: seq<Path>, fs: FileSystem, dst: Path, fs0: FileSystem)
    requires RoundTripReady(directory, rels, fs, dst, fs0)
    ensures Tar(directory, Walked(directory, rels), fs).Ok?
    ensures UntarWith(policy, dst, Entries(Tar(directory, Walked(directory, rels), fs).value), AtEof, fs0).result == Pass
    ensures forall i | 0 <= i < |rels| ::
      (fs[directory + rels[i]].Dir? || fs[directory + rels[i]].File?) ==>
        && dst + rels[i] in UntarWith(policy, dst, Entries(Tar(directory, Walked(directory, rels), fs).value), AtEof, fs0).fs
        && UntarWith(policy, dst, Entries(Tar(directory, Walked(directory, rels), fs).value), AtEof, fs0).fs[dst + rels[i]]
           == fs[directory + rels[i]]
  {
    TarOfWalk(directory, rels, fs);
    var hs := Tar(directory, Walked(directory, rels), fs).value;
    var states := ExtractionStates(directory, rels, fs, dst, fs0);
    ExtractionSteps(policy, directory, rels, fs, dst, fs0, hs, states);
    assert Reaches(policy, dst, Entries(hs), states) by {
      forall m | 0 <= m < |states| - 1
        ensures StepsTo(policy, dst, Entries(hs)[m], states[m], states[m + 1])
      {
        assert Entries(hs)[m] == Some(hs[m]);
      }
    }
    UntarChain(policy, dst, Entries(hs), AtEof, states);
    var last := Extracted(directory, rels, fs, dst, fs0, |rels|);
    assert UntarWith(policy, dst, Entries(hs), AtEof, fs0) == UntarRun(last, Pass);
    forall i | 0 <= i < |rels| && (fs[directory + rels[i]].Dir? || fs[directory + rels[i]].File?)
      ensures dst + rels[i] in last && last[dst + rels[i]] == fs[directory + rels[i]]
    {
      ExtractedKeeps(directory, rels, fs, dst, fs0, i, |rels|);
    }
  }
}

=== FILE: bits.dfy ===
/** The bill of materials: one descriptor per artifact plus run-wide secrets
    (model/bits.go). Parsing the YAML document is not part of this model. */
module Bits {
  import opened Outcomes

  /** One bill-of-materials entry. Which fields matter depends on `resourceType`. */
  datatype MinioObject = MinioObject(
    name: string,
    contentType: string,
    resourceType: string,
    url: string,
    productSlug: string,
    productFamily: string,
    globs: seq<string>,
    version: string,
    imageName: string,
    tag: string,
    gitRepo: string,
    branch: string,
    gitUser: string,
    gitPassword: string)

  datatype Bom = Bom(
    bits: seq<MinioObject>,
    pivnetToken: string,
    myVmwareUser: string,
    myVmwarePassword: string,
    iaas: string)

  /** The resource types the download command recognises. */
  datatype ResourceKind = FileKind | PivnetNonTile | PivnetTile | DockerKind | GitKind | VMwareKind

  /** The manifest spelling of each resource type. */
  function Tag(k: ResourceKind): string {
    match k
    case FileKind => "file"
    case PivnetNonTile => "pivnet-non-tile"
    case PivnetTile => "pivnet-tile"
    case DockerKind => "docker"
    case GitKind => "git"
    case VMwareKind => "vmware"
  }

  const PivnetTileTag: string := "pivnet-tile"

  /** The `case` labels of the download switch, read back from a tag. */
  function ParseKind(s: string): (r: Option<ResourceKind>)
    ensures r.Some? ==> Tag(r.value) == s
    ensures r.None? ==> forall k: ResourceKind :: Tag(k) != s
  {
    if s == "file" then Some(FileKind)
    else if s == "pivnet-non-tile" then Some(PivnetNonTile)
    else if s == "pivnet-tile" then Some(PivnetTile)
    else if s == "docker" then Some(DockerKind)
    else if s == "git" then Some(GitKind)
    else if s == "vmware" then Some(VMwareKind)
    else None
  }

  /** Every resource type is recognised under its own tag and no other. */
  lemma ParseTag(k: ResourceKind)
    ensures ParseKind(Tag(k)) == Some(k)
  {
  }
}

=== FILE: download.dfy ===
/** The download command (commands/download.go): write the my.vmware
    credentials, then for each descriptor create its resource-type directory
    and run the one acquisition its type selects; an unknown type ends the
    run. Also the pure rules inside `DownloadDocker`: the "image already
    present" test and where the image's files go. */
module Download {
  import opened Outcomes
  import opened Strings
  import opened Paths
  import opened Bits
  import opened RelativePath
  import opened FailFast
  import Upload

  /** The arguments of the pivnet `download-product-files` command. */
  datatype PivnetDownload = PivnetDownload(
    productSlug: string,
    releaseVersion: string,
    downloadDir: Path,
    acceptEula: bool,
    globs: seq<string>)

  /** The acquisition the switch picks for one descriptor. */
  datatype Action =
    | DownloadFile(filePath: Path, url: string)
    | DownloadPivnet(command: PivnetDownload, token: string)
    | DownloadDocker(imageName: string, path: Path, fileName: string)
    | DownloadVMWare(fileName: string, fileDir: Path)

  /** The fatal message for a type the switch does not know. */
  function NotRecognized(resourceType: string): string {
    "Resource Type '" + resourceType + "' is not recognized"
  }

  /** Where a git branch is fetched from: GitHub's archive of the branch. */
  function GitArchiveUrl(f: MinioObject): string {
    f.gitRepo + "/archive/" + f.branch + ".zip"
  }

  /** The switch of the download loop for one descriptor. */
  function Dispatch(bom: Bom, bitsDir: Path, f: MinioObject): (r: Result<Action>)
    ensures r.Ok? <==> ParseKind(f.resourceType).Some?
    ensures ParseKind(f.resourceType).None? ==> r == Err(NotRecognized(f.resourceType))
    ensures ParseKind(f.resourceType) == Some(FileKind) ==>
      r == Ok(DownloadFile(ResourceTypeDir(bitsDir, f) + [f.name], f.url))
    ensures ParseKind(f.resourceType) == Some(GitKind) ==>
      r == Ok(DownloadFile(ResourceTypeDir(bitsDir, f) + [f.name], GitArchiveUrl(f)))
    ensures ParseKind(f.resourceType) in {Some(PivnetNonTile), Some(PivnetTile)} ==>
      r == Ok(DownloadPivnet(
        PivnetDownload(f.productSlug, f.version, ResourceTypeDir(bitsDir, f), true, ["*"]),
        bom.pivnetToken))
    ensures ParseKind(f.resourceType) == Some(DockerKind) ==>
      r == Ok(DownloadDocker(f.imageName, ResourceTypeDir(bitsDir, f), f.name))
    ensures ParseKind(f.resourceType) == Some(VMwareKind) ==>
      r == Ok(DownloadVMWare(f.name, ResourceTypeDir(bitsDir, f)))
  {
    var rt := f.resourceType;
    var fileDir := bitsDir + ["resources", rt];
    var filePath := fileDir + [f.name];
    if rt == "file" then Ok(DownloadFile(filePath, f.url))
    else if rt == "pivnet-non-tile" || rt == "pivnet-tile" then
      Ok(DownloadPivnet(PivnetDownload(f.productSlug, f.version, fileDir, true, ["*"]), bom.pivnetToken))
    else if rt == "docker" then Ok(DownloadDocker(f.imageName, fileDir, f.name))
    else if rt == "git" then Ok(DownloadFile(filePath, GitArchiveUrl(f)))
    else if rt == "vmware" then Ok(DownloadVMWare(f.name, fileDir))
    else Err(NotRecognized(rt))
  }

  /** The local file an action leaves behind, when the command names it
      itself; the pivnet CLI and the my.vmware container pick their own
      file names inside the directory they are given. */
  function ArtifactPath(a: Action): Option<Path> {
    match a
    case DownloadFile(filePath, _) => Some(filePath)
    case DownloadDocker(_, path, fileName) => Some(path + [fileName])
    case _ => None
  }

  /** Files, git archives and image archives land exactly where the uploader
      later reads them; pivnet downloads go to the resource-type directory,
      which is the directory of the uploader's file for non-tiles only. */
  lemma DownloadMeetsUpload(bom: Bom, cfg: Upload.Config, f: MinioObject)
    requires ParseKind(f.resourceType).Some?
    ensures ParseKind(f.resourceType).value in {FileKind, GitKind, DockerKind} ==>
      ArtifactPath(Dispatch(bom, cfg.bitsDir, f).value) == Some(Upload.PutRequestFor(cfg, f).source)
    ensures Dispatch(bom, cfg.bitsDir, f).value.DownloadPivnet? ==>
      (Dispatch(bom, cfg.bitsDir, f).value.command.downloadDir == Parent(Upload.PutRequestFor(cfg, f).source)
       <==> f.resourceType == "pivnet-non-tile")
  {
    Upload.PutRequestMatchesRelativePath(cfg, f);
    ResourceTypeDirIsParentUnlessTile(cfg.bitsDir, f);
  }

  /** Pivnet downloads always fetch every file of the release: the
      descriptor's own globs play no part in what is downloaded. */
  lemma PivnetIgnoresGlobs(bom: Bom, bitsDir: Path, f: MinioObject, globs: seq<string>)
    requires ParseKind(f.resourceType) in {Some(PivnetNonTile), Some(PivnetTile)}
    ensures Dispatch(bom, bitsDir, f.(globs := globs)) == Dispatch(bom, bitsDir, f)
    ensures Dispatch(bom, bitsDir, f).value.command.globs == ["*"]
  {
  }

  /** The credentials document written before the loop. */
  datatype Credentials = Credentials(username: string, password: string)

  /** One descriptor's turn: the directory created, then the switch's pick. */
  datatype Visit = Visit(dir: Path, action: Result<Action>)

  /** How the outside world answers: writing `./config.json`, and running an
      acquisition (a failure inside one is fatal through `check`). */
  datatype Env = Env(writeCredentials: Credentials -> Outcome, perform: Action -> Outcome)

  /** What one run of the command did, in order, and how it ended. */
  datatype DownloadRun = DownloadRun(credentials: Credentials, visits: seq<Visit>, result: Outcome)

  function VisitFor(bom: Bom, bitsDir: Path, f: MinioObject): Visit {
    Visit(ResourceTypeDir(bitsDir, f), Dispatch(bom, bitsDir, f))
  }

  /** How one descriptor's turn ends. */
  function Answer(bom: Bom, bitsDir: Path, env: Env, f: MinioObject): Outcome {
    match Dispatch(bom, bitsDir, f)
    case Err(m) => Fail(m)
    case Ok(a) => env.perform(a)
  }

  /** Descriptor `f` is recognised and its acquisition succeeds. */
  predicate Acquired(bom: Bom, bitsDir: Path, env: Env, f: MinioObject) {
    Answer(bom, bitsDir, env, f).Pass?
  }

  /** The loop over the descriptors: one visit each, in order, until the
      first acquisition that fails. */
  function Visits(bom: Bom, bitsDir: Path, env: Env): (run: Run<Visit>)
    ensures |run.steps| <= |bom.bits|
    ensures forall i | 0 <= i < |run.steps| :: run.steps[i] == VisitFor(bom, bitsDir, bom.bits[i])
    ensures run.result.Pass? <==> forall i | 0 <= i < |bom.bits| :: Acquired(bom, bitsDir, env, bom.bits[i])
    ensures run.result.Pass? ==> |run.steps| == |bom.bits|
    ensures run.result.Fail? ==>
      && run.steps != []
      && Answer(bom, bitsDir, env, bom.bits[|run.steps| - 1]) == run.result
      && forall i | 0 <= i < |run.steps| - 1 :: Acquired(bom, bitsDir, env, bom.bits[i])
  {
    Fold(bom.bits, f => VisitFor(bom, bitsDir, f), f => Answer(bom, bitsDir, env, f))
  }

  /** `DownloadBitsCommand.Execute` after the manifest is read. */
  function Execute(bom: Bom, bitsDir: Path, env: Env): (r: DownloadRun)
    ensures r.credentials == Credentials(bom.myVmwareUser, bom.myVmwarePassword)
    ensures r.result.Pass? <==>
      && env.writeCredentials(r.credentials).Pass?
      && forall i | 0 <= i < |bom.bits| :: Acquired(bom, bitsDir, env, bom.bits[i])
    ensures env.writeCredentials(r.credentials).Fail? ==>
      r.visits == [] && r.result == env.writeCredentials(r.credentials)
    ensures env.writeCredentials(r.credentials).Pass? && r.result.Fail? ==> r.visits != []
    ensures |r.visits| <= |bom.bits|
    ensures forall i | 0 <= i < |r.visits| :: r.visits[i] == VisitFor(bom, bitsDir, bom.bits[i])
    ensures r.result.Pass? ==> |r.visits| == |bom.bits|
    ensures r.result.Fail? && r.visits != [] ==>
      && Answer(bom, bitsDir, env, bom.bits[|r.visits| - 1]) == r.result
      && forall i | 0 <= i < |r.visits| - 1 :: Acquired(bom, bitsDir, env, bom.bits[i])
  {
    var creds := Credentials(bom.myVmwareUser, bom.myVmwarePassword);
    var written := env.writeCredentials(creds);
    if written.Fail? then DownloadRun(creds, [], written)
    else
      var run := Visits(bom, bitsDir, env);
      DownloadRun(creds, run.steps, run.result)
  }

  /** An unrecognised type is fatal with its own message: every earlier
      descriptor has had its turn and no later one is visited. */
  lemma {:induction false} UnrecognizedStopsRun(bom: Bom, bitsDir: Path, env: Env, k: nat)
    requires k < |bom.bits|
    requires env.writeCredentials(Credentials(bom.myVmwareUser, bom.myVmwarePassword)).Pass?
    requires ParseKind(bom.bits[k].resourceType).None?
    requires forall i | 0 <= i < k :: Acquired(bom, bitsDir, env, bom.bits[i])
    ensures |Execute(bom, bitsDir, env).visits| == k + 1
    ensures Execute(bom, bitsDir, env).result == Fail(NotRecognized(bom.bits[k].resourceType))
  {
    assert !Acquired(bom, bitsDir, env, bom.bits[k]);
  }

  /** One local image as the Docker daemon lists it. */
  datatype Image = Image(repoDigests: seq<string>)

  /** A digest names the image when its repository part, before `@`,
      contains the image name. */
  predicate DigestNames(digest: string, imageName: string) {
    Contains(Before(digest, '@'), imageName)
  }

  /** Some digest among the first `n` images names the image. */
  predicate NamedAmong(images: seq<Image>, n: int, imageName: string)
    requires 0 <= n <= |images|
  {
    exists a, b | 0 <= a < n && 0 <= b < |images[a].repoDigests| :: DigestNames(images[a].repoDigests[b], imageName)
  }

  /** `strings.Index(s, sub)`: the first place `sub` occurs, or -1. */
  method Index(s: string, sub: string) returns (k: int)
    ensures k == -1 <==> !Contains(s, sub)
    ensures k != -1 ==> OccursAt(s, sub, k) && forall j | 0 <= j < k :: !OccursAt(s, sub, j)
  {
    k := 0;
    while k + |sub| <= |s|
      invariant 0 <= k
      invariant forall j | 0 <= j < k :: !OccursAt(s, sub, j)
      decreases |s| - k
    {
      if s[k..k + |sub|] == sub {
        assert OccursAt(s, sub, k);
        return;
      }
      k := k + 1;
    }
    k := -1;
  }

  /** The scan in `DownloadDocker` that decides whether to pull: every digest
      of every listed image is looked at. */
  method ImageFound(images: seq<Image>, imageName: string) returns (found: bool)
    ensures found <==> NamedAmong(images, |images|, imageName)
  {
    found := false;
    for a := 0 to |images|
      invariant found <==> NamedAmong(images, a, imageName)
    {
      var digests := images[a].repoDigests;
      for b := 0 to |digests|
        invariant found <==>
          NamedAmong(images, a, imageName) || exists c | 0 <= c < b :: DigestNames(digests[c], imageName)
      {
        var k := Index(Before(digests[b], '@'), imageName);
        if k >= 0 {
          found := true;
        }
      }
    }
  }

  /** Where `DownloadDocker` puts things for an image: the exported root
      filesystem, the metadata document and the directory it tars all come
      from string concatenation or `filepath.Join` under `path`; the archive
      is `path/fileName`. */
  datatype DockerLayout = DockerLayout(imageDir: Path, rootfs: Path, metadata: Path, untarDir: Path, archive: Path)

  function DockerLayoutFor(path: Path, imageName: string, fileName: string): DockerLayout {
    var imageDir := Join(path, imageName);
    DockerLayout(
      imageDir,
      Split(Render(path) + "/" + imageName + "/" + "rootfs"),
      Split(Render(path) + "/" + imageName + "/" + "metadata.json"),
      Split(Render(imageDir) + "/" + "rootfs"),
      Join(path, fileName))
  }

  /** Splitting `dir/leaf` for a clean directory recovers its segments. */
  lemma SplitUnder(dir: Path, leaf: string)
    requires |dir| >= 1 && SlashFree(dir) && '/' !in leaf
    ensures Split(Render(dir) + "/" + leaf) == dir + [leaf]
  {
    RenderAppend(dir, [leaf]);
    SplitRender(dir + [leaf]);
  }

  /** The image directory is `filepath.Join(path, imageName)`: the image
      name's segments under `path`. */
  lemma ImageDirSegments(path: Path, imageName: string)
    requires ValidPath(path) && ValidPath(Split(imageName))
    ensures Join(path, imageName) == path + Split(imageName)
  {
    CleanValid(path + Split(imageName));
  }

  /** `path + "/" + imageName + "/" + leaf` names `leaf` inside the image
      directory. */
  lemma UnderImageDir(path: Path, imageName: string, leaf: string)
    requires |path| >= 1 && SlashFree(path) && '/' !in leaf
    ensures Split(Render(path) + "/" + imageName + "/" + leaf) == path + Split(imageName) + [leaf]
  {
    var image := Split(imageName);
    RenderSplit(imageName);
    RenderAppend(path, image);
    SplitUnder(path + image, leaf);
  }

  /** A one-segment child of `path` lies under `path + image` exactly when
      the image is that very segment. */
  lemma SiblingInside(path: Path, image: Path, leaf: string)
    requires |image| >= 1
    ensures IsPrefix(path + image, path + [leaf]) <==> image == [leaf]
  {
    if IsPrefix(path + image, path + [leaf]) {
      assert (path + [leaf])[..|path| + |image|] == path + image;
      assert image == (path + image)[|path|..];
    }
  }

  /** A one-segment child of `path` lies on the way to `path + image`
      exactly when it is the image's first segment. */
  lemma SiblingAbove(path: Path, image: Path, leaf: string)
    requires |image| >= 1
    ensures IsPrefix(path + [leaf], path + image) <==> image[0] == leaf
  {
    assert (path + image)[|path|] == image[0];
    if image[0] == leaf {
      assert (path + image)[..|path| + 1] == path + [leaf];
    }
  }

  /** A string splits into the single segment `leaf` exactly when it is `leaf`. */
  lemma SplitSingle(s: string, leaf: string)
    requires '/' !in leaf
    ensures Split(s) == [leaf] <==> s == leaf
  {
    if Split(s) == [leaf] {
      RenderSplit(s);
    }
    if s == leaf {
      assert Before(leaf, '/') == leaf;
    }
  }

  /** The fixed names `DownloadDocker` uses are single well-formed segments.
      Kept apart so that these facts about literals are solved in a small
      context. */
  lemma FixedNamesValid()
    ensures '/' !in "rootfs" && '/' !in "metadata.json"
  {
  }

  /** For a clean directory and an image name made of well-formed segments,
      the root filesystem the image is exported into is the one created for
      it, and both sit with the metadata inside the tarred directory
      `path/imageName`. The archive `path/fileName` lies outside that
      directory unless it is the directory itself, exactly when the image
      name is the file name; it is the directory or one of its ancestors
      exactly when the file name is the image name's first segment. In
      both cases the path is a directory and creating the archive fails. */
  lemma DockerLayoutConsistent(path: Path, imageName: string, fileName: string)
    requires |path| >= 1 && ValidPath(path)
    requires ValidPath(Split(imageName))
    requires ValidSegment(fileName)
    ensures DockerLayoutFor(path, imageName, fileName).imageDir == path + Split(imageName)
    ensures DockerLayoutFor(path, imageName, fileName).rootfs == path + Split(imageName) + ["rootfs"]
    ensures DockerLayoutFor(path, imageName, fileName).untarDir == path + Split(imageName) + ["rootfs"]
    ensures DockerLayoutFor(path, imageName, fileName).metadata == path + Split(imageName) + ["metadata.json"]
    ensures DockerLayoutFor(path, imageName, fileName).archive == path + [fileName]
    ensures IsPrefix(DockerLayoutFor(path, imageName, fileName).imageDir, DockerLayoutFor(path, imageName, fileName).archive)
            <==> DockerLayoutFor(path, imageName, fileName).archive == DockerLayoutFor(path, imageName, fileName).imageDir
    ensures DockerLayoutFor(path, imageName, fileName).archive == DockerLayoutFor(path, imageName, fileName).imageDir
            <==> imageName == fileName
    ensures IsPrefix(DockerLayoutFor(path, imageName, fileName).archive, DockerLayoutFor(path, imageName, fileName).imageDir)
            <==> Split(imageName)[0] == fileName
  {
    var image := Split(imageName);
    var l := DockerLayoutFor(path, imageName, fileName);
    FixedNamesValid();
    assert SlashFree(path);
    ImageDirSegments(path, imageName);
    assert l.imageDir == path + image;
    UnderImageDir(path, imageName, "rootfs");
    UnderImageDir(path, imageName, "metadata.json");
    ValidAppend(path, image);
    SplitUnder(path + image, "rootfs");
    assert l.untarDir == Split(Render(path + image) + "/" + "rootfs");
    CleanValid(path + [fileName]);
    assert l.archive == path + [fileName];
    SiblingInside(path, image, fileName);
    SiblingAbove(path, image, fileName);
    SplitSingle(imageName, fileName);
  }
}

=== FILE: fail_fast.dfy ===
/** The shape every loop of the core shares: visit the manifest in order,
    make one request per entry, stop at the first failure and never touch a
    later entry. The source expresses the stop with `log.Fatalln` or an
    early `return err`. */
module FailFast {
  import opened Outcomes

  /** The requests a stage made, in order, and how it ended. */
  datatype Run<S> = Run(steps: seq<S>, result: Outcome)

  /** Visits `xs` in order: entry `x` makes the request `request(x)`, which
      ends with `answer(x)`; the first failing answer ends the run. */
  function Fold<T, S>(xs: seq<T>, request: T -> S, answer: T -> Outcome): (r: Run<S>)
    ensures |r.steps| <= |xs|
    ensures forall i | 0 <= i < |r.steps| :: r.steps[i] == request(xs[i])
    ensures r.result.Pass? <==> forall i | 0 <= i < |xs| :: answer(xs[i]).Pass?
    ensures r.result.Pass? ==> |r.steps| == |xs|
    ensures r.result.Fail? ==>
      && 0 < |r.steps|
      && answer(xs[|r.steps| - 1]) == r.result
      && forall i | 0 <= i < |r.steps| - 1 :: answer(xs[i]).Pass?
  {
    if xs == [] then Run([], Pass)
    else if answer(xs[0]).Fail? then Run([request(xs[0])], answer(xs[0]))
    else
      var rest := Fold(xs[1..], request, answer);
      Run([request(xs[0])] + rest.steps, rest.result)
  }
}

=== FILE: generate_resources.dfy ===
/** The generate-resources command (commands/generate_resources.go): one
    pipeline resource per descriptor, pointing at the object the uploader
    stores for it. Marshalling the block to YAML is not part of this model. */
module GenerateResources {
  import opened Strings
  import opened Paths
  import opened Bits
  import opened RelativePath
  import Upload

  /** The command's flags. */
  datatype Config = Config(hostName: string, accessKey: string, secretAccessKey: string, bucket: string)

  /** `model.Source` */
  datatype Source = Source(
    accessKey: string,
    secretAccessKey: string,
    bucket: string,
    endpoint: string,
    regExp: string)

  /** `model.Resource`; `resourceType` is the YAML field `type`. */
  datatype Resource = Resource(name: string, source: Source, resourceType: string)

  /** The resource name: the file name up to its first `.`. */
  function ResourceName(fileName: string): (r: string)
    ensures HasPrefix(fileName, r)
    ensures '.' !in r
    ensures |r| < |fileName| ==> fileName[|r|] == '.'
    ensures '.' !in fileName ==> r == fileName
  {
    Before(fileName, '.')
  }

  /** The resource built for one descriptor. */
  function ResourceFor(cfg: Config, f: MinioObject): Resource {
    Resource(
      ResourceName(f.name),
      Source(cfg.accessKey, cfg.secretAccessKey, cfg.bucket, "http://" + cfg.hostName, GoRelativePath(f)),
      "s3")
  }

  /** The loop of `GenerateResourcesCommand.Execute`: one resource per
      descriptor, in manifest order. */
  method Generate(cfg: Config, bits: seq<MinioObject>) returns (resources: seq<Resource>)
    ensures |resources| == |bits|
    ensures forall i | 0 <= i < |bits| ::
      && '.' !in resources[i].name
      && HasPrefix(bits[i].name, resources[i].name)
      && (|resources[i].name| < |bits[i].name| ==> bits[i].name[|resources[i].name|] == '.')
    ensures forall i | 0 <= i < |bits| :: resources[i].source.regExp == GoRelativePath(bits[i])
    ensures forall i | 0 <= i < |bits| ::
      && resources[i].resourceType == "s3"
      && resources[i].source.endpoint == "http://" + cfg.hostName
      && resources[i].source.accessKey == cfg.accessKey
      && resources[i].source.secretAccessKey == cfg.secretAccessKey
      && resources[i].source.bucket == cfg.bucket
  {
    resources := seq(|bits|, i requires 0 <= i < |bits| => ResourceFor(cfg, bits[i]));
  }

  /** A generated resource matches exactly the object the uploader stores for
      the same descriptor in the same bucket: both are `filepath.Join` of the
      same elements, which for well-formed key fields read as the segments
      joined with `/`. */
  lemma RegExpIsUploadKey(cfg: Config, upload: Upload.Config, f: MinioObject)
    requires upload.bucket == cfg.bucket
    ensures ResourceFor(cfg, f).source.regExp == JoinAll(Upload.PutRequestFor(upload, f).key)
    ensures KeyFieldsValid(f) ==> ResourceFor(cfg, f).source.regExp == Render(Upload.PutRequestFor(upload, f).key)
    ensures ResourceFor(cfg, f).source.bucket == Upload.PutRequestFor(upload, f).bucket
  {
    Upload.PutRequestMatchesRelativePath(upload, f);
    if KeyFieldsValid(f) {
      GoRelativePathAgrees(f);
    }
  }
}

=== FILE: outcomes.dfy ===
/** Failure-carrying values used in place of the source's `log.Fatalln`,
    `check(err)` and returned `error`s. */
module Outcomes {

  /** Present or absent value. */
  datatype Option<+T> = None | Some(value: T)

  /** A value, or the message the source would log before exiting. */
  datatype Result<+T> = Ok(value: T) | Err(msg: string)

  /** The outcome of a step that returns no value (a Go `error`). */
  datatype Outcome = Pass | Fail(msg: string)
}

=== FILE: paths.dfy ===
/** Slash-separated paths as sequences of segments.

    `filepath.Join` of well-formed segments is sequence concatenation here;
    the lexical cleaning Go applies on top of it is the separate `Clean`,
    used only where the source joins elements that may be empty, `.` or `..`.
    Paths are relative to an abstract root: a leading `/` is not modelled. */
module Paths {
  import opened Strings

  type Path = seq<string>

  /** A segment that `filepath.Clean` leaves alone. */
  predicate ValidSegment(s: string) {
    s != "" && '/' !in s && s != "." && s != ".."
  }

  predicate ValidPath(p: Path) {
    forall i | 0 <= i < |p| :: ValidSegment(p[i])
  }

  /** No segment holds a separator, so rendering loses no structure. */
  predicate SlashFree(p: Path) {
    forall i | 0 <= i < |p| :: '/' !in p[i]
  }

  /** `p` is a (non-strict) prefix of `q`: `q` lies at or under `p`. */
  predicate IsPrefix(p: Path, q: Path) {
    |p| <= |q| && q[..|p|] == p
  }

  /** Well-formed paths stay well formed when joined, and hold no separator. */
  lemma ValidAppend(p: Path, q: Path)
    requires ValidPath(p) && ValidPath(q)
    ensures ValidPath(p + q) && SlashFree(p + q)
  {
    forall i | 0 <= i < |p + q|
      ensures ValidSegment((p + q)[i])
    {
      if i >= |p| {
        assert (p + q)[i] == q[i - |p|];
      }
    }
  }

  /** `filepath.Dir` of a non-empty well-formed path. */
  function Parent(p: Path): Path
    requires |p| > 0
  {
    p[..|p| - 1]
  }

  /** The segments joined with `/`. */
  function Render(p: Path): string {
    if |p| == 0 then ""
    else if |p| == 1 then p[0]
    else p[0] + "/" + Render(p[1..])
  }

  /** `strings.Split(s, "/")`: always at least one element. */
  function Split(s: string): (r: Path)
    ensures |r| >= 1
    ensures SlashFree(r)
    decreases |s|
  {
    var head := Before(s, '/');
    if |head| == |s| then [s] else [head] + Split(s[|head| + 1..])
  }

  /** Rendering a segment in front of a non-empty path. */
  lemma RenderCons(head: string, rest: Path)
    requires |rest| >= 1
    ensures Render([head] + rest) == head + "/" + Render(rest)
  {
    var p := [head] + rest;
    assert p[0] == head && p[1..] == rest;
  }

  /** Splitting and re-joining gives back any string. */
  lemma {:induction false} RenderSplit(s: string)
    ensures Render(Split(s)) == s
    decreases |s|
  {
    var head := Before(s, '/');
    if |head| < |s| {
      var tail := s[|head| + 1..];
      RenderSplit(tail);
      RenderCons(head, Split(tail));
      CutAtSeparator(s, head, '/');
    }
  }

  /** Rendering and splitting gives back any path whose segments hold no `/`. */
  lemma {:induction false} SplitRender(p: Path)
    requires |p| >= 1 && SlashFree(p)
    ensures Split(Render(p)) == p
  {
    if |p| == 1 {
      assert Before(p[0], '/') == p[0];
    } else {
      var tail := Render(p[1..]);
      BeforeStopsAtSeparator(p[0], '/', tail);
      var s := p[0] + "/" + tail;
      assert s == p[0] + ['/'] + tail;
      assert s[|p[0]| + 1..] == tail;
      SplitRender(p[1..]);
    }
  }

  /** Distinct well-formed paths render to distinct strings. */
  lemma RenderInjective(p: Path, q: Path)
    requires |p| >= 1 && |q| >= 1 && SlashFree(p) && SlashFree(q)
    ensures Render(p) == Render(q) <==> p == q
  {
    if Render(p) == Render(q) {
      SplitRender(p);
      SplitRender(q);
    }
  }

  /** Rendering distributes over concatenation with one separator. */
  lemma {:induction false} RenderAppend(p: Path, q: Path)
    requires |p| >= 1 && |q| >= 1
    ensures Render(p + q) == Render(p) + "/" + Render(q)
  {
    if |p| > 1 {
      assert (p + q)[1..] == p[1..] + q;
      RenderAppend(p[1..], q);
    }
  }

  /** One element of `filepath.Clean`'s lexical pass over an unrooted path:
      empty and `.` elements vanish, `..` removes the preceding real element
      and is kept when there is none. */
  function CleanStep(acc: Path, s: string): Path {
    if s == "" || s == "." then acc
    else if s == ".." && |acc| > 0 && acc[|acc| - 1] != ".." then acc[..|acc| - 1]
    else acc + [s]
  }

  function CleanFrom(acc: Path, rest: Path): Path
    decreases |rest|
  {
    if rest == [] then acc else CleanFrom(CleanStep(acc, rest[0]), rest[1..])
  }

  /** `filepath.Clean` on the elements of an unrooted path. */
  function Clean(p: Path): Path {
    CleanFrom([], p)
  }

  /** Well-formed elements pass through cleaning untouched. */
  lemma {:induction false} CleanFromValid(acc: Path, rest: Path)
    requires ValidPath(rest)
    ensures CleanFrom(acc, rest) == acc + rest
    decreases |rest|
  {
    if rest != [] {
      CleanFromValid(acc + [rest[0]], rest[1..]);
      assert acc + [rest[0]] + rest[1..] == acc + rest;
    }
  }

  /** Cleaning a well-formed path changes nothing. */
  lemma CleanValid(p: Path)
    requires ValidPath(p)
    ensures Clean(p) == p
  {
    CleanFromValid([], p);
  }

  /** Once past some empty and `.` elements, cleaning continues as before. */
  lemma {:induction false} CleanFromSkips(acc: Path, skipped: Path, rest: Path)
    requires forall i | 0 <= i < |skipped| :: skipped[i] == "" || skipped[i] == "."
    ensures CleanFrom(acc, skipped + rest) == CleanFrom(acc, rest)
    decreases |skipped|
  {
    if skipped != [] {
      var all := skipped + rest;
      assert all[0] == skipped[0] && all[1..] == skipped[1..] + rest;
      assert CleanFrom(acc, all) == CleanFrom(acc, skipped[1..] + rest);
      CleanFromSkips(acc, skipped[1..], rest);
    } else {
      assert skipped + rest == rest;
    }
  }

  /** `filepath.Join(base, s)` for an already clean `base`: the string's
      elements are appended and the whole is cleaned. */
  function Join(base: Path, s: string): Path {
    Clean(base + Split(s))
  }

  /** Joining a well-formed path's rendering appends exactly its segments. */
  lemma JoinRendered(base: Path, p: Path)
    requires ValidPath(base) && ValidPath(p) && |p| >= 1
    ensures Join(base, Render(p)) == base + p
  {
    SplitRender(p);
    assert ValidPath(base + p);
    CleanValid(base + p);
  }

  /** `filepath.Clean` as a string: an empty result is written `.`. */
  function CleanRender(p: Path): string {
    var c := Clean(p);
    if c == [] then "." else Render(c)
  }

  /** Cleaning works element by element from left to right. */
  lemma {:induction false} CleanFromAppend(acc: Path, p: Path, q: Path)
    ensures CleanFrom(acc, p + q) == CleanFrom(CleanFrom(acc, p), q)
    decreases |p|
  {
    if p != [] {
      assert (p + q)[0] == p[0] && (p + q)[1..] == p[1..] + q;
      CleanFromAppend(CleanStep(acc, p[0]), p[1..], q);
    } else {
      assert p + q == q;
    }
  }

  /** The elements of several strings, each split on `/`. */
  function SplitAll(elems: seq<string>): Path {
    if elems == [] then [] else Split(elems[0]) + SplitAll(elems[1..])
  }

  /** `filepath.Join(elems...)` as a string: empty elements are ignored, the
      rest are joined with `/` and the result is cleaned; only empty
      elements give the empty string. A leading `/` is not modelled. */
  function JoinAll(elems: seq<string>): string {
    if AllEmpty(elems) then "" else CleanRender(SplitAll(elems))
  }

  /** Every element is the empty string. */
  predicate AllEmpty(elems: seq<string>) {
    elems == [] || (elems[0] == "" && AllEmpty(elems[1..]))
  }

  /** Strings without a separator split into themselves. */
  lemma {:induction false} SplitAllSlashFree(elems: seq<string>)
    requires SlashFree(elems)
    ensures SplitAll(elems) == elems
  {
    if elems != [] {
      assert Before(elems[0], '/') == elems[0];
      SplitAllSlashFree(elems[1..]);
      assert [elems[0]] + elems[1..] == elems;
    }
  }

  /** Joining well-formed segments is rendering them: cleaning finds
      nothing to do. */
  lemma JoinAllValid(elems: seq<string>)
    requires |elems| >= 1 && ValidPath(elems)
    ensures JoinAll(elems) == Render(elems)
  {
    assert !AllEmpty(elems);
    SplitAllSlashFree(elems);
    CleanValid(elems);
  }

  /** A trailing empty element is dropped by the join but kept, as a
      trailing separator, by plain rendering. */
  lemma JoinAllDropsEmptyLast(dir: Path)
    requires |dir| >= 1 && ValidPath(dir)
    ensures JoinAll(dir + [""]) == Render(dir)
    ensures Render(dir + [""]) == Render(dir) + "/"
  {
    var p := dir + [""];
    assert !AllEmpty(p);
    assert SlashFree(p);
    SplitAllSlashFree(p);
    CleanFromAppend([], dir, [""]);
    CleanValid(dir);
    RenderAppend(dir, [""]);
  }

  /** A splitting of a string that starts with a separator begins with an
      empty element. */
  lemma SplitLeadingSlash(s: string)
    ensures Split("/" + s) == [""] + Split(s)
  {
    var t := "/" + s;
    assert Before(t, '/') == "";
    assert t[1..] == s;
  }
}

=== FILE: relative_path.dfy ===
/** The deterministic mapping from a descriptor to its place under the bits
    directory and to its object key (model/path.go). Packaging writes there,
    the uploader reads from there and uses the same path as the key, and the
    generated pipeline resources match on it. */
module RelativePath {
  import opened Strings
  import opened Paths
  import opened Bits

  /** The directory that holds a product slug's tile archives. */
  function TarballSegment(productSlug: string): string {
    productSlug + "-tarball"
  }

  /** `model.GetRelativePath` */
  function GetRelativePath(f: MinioObject): (r: Path)
    ensures |r| == (if f.resourceType == PivnetTileTag then 4 else 3)
    ensures r[0] == "resources" && r[1] == f.resourceType && r[|r| - 1] == f.name
  {
    if f.resourceType == PivnetTileTag then
      ["resources", f.resourceType, TarballSegment(f.productSlug), f.name]
    else
      ["resources", f.resourceType, f.name]
  }

  /** `bitsDir/resources/{resourceType}`: the directory the downloader
      creates and fills and the one the uploader's pre-flight check stats. */
  function ResourceTypeDir(bitsDir: Path, f: MinioObject): Path {
    bitsDir + ["resources", f.resourceType]
  }

  /** The fields the mapping reads: the resource type, the name and, for
      tiles only, the product slug. */
  predicate SameKey(f: MinioObject, g: MinioObject) {
    && f.resourceType == g.resourceType
    && f.name == g.name
    && (f.resourceType == PivnetTileTag ==> f.productSlug == g.productSlug)
  }

  /** Key fields that render without a stray separator. */
  predicate KeyFieldsValid(f: MinioObject) {
    && ValidSegment(f.resourceType)
    && ValidSegment(f.name)
    && (f.resourceType == PivnetTileTag ==> '/' !in f.productSlug)
  }

  /** The relative path as the string the source builds. */
  lemma RelativePathString(f: MinioObject)
    ensures f.resourceType == PivnetTileTag ==>
      Render(GetRelativePath(f)) == "resources" + "/" + PivnetTileTag + "/" + (f.productSlug + "-tarball") + "/" + f.name
    ensures f.resourceType != PivnetTileTag ==>
      Render(GetRelativePath(f)) == "resources" + "/" + f.resourceType + "/" + f.name
  {
    var r := GetRelativePath(f);
    var rest := Render(r[2..]);
    assert Render(r) == "resources" + "/" + (f.resourceType + "/" + rest);
    if f.resourceType == PivnetTileTag {
      var last := [TarballSegment(f.productSlug), f.name];
      assert r[2..] == last && last[1..] == [f.name];
      assert Render(last) == last[0] + "/" + Render([f.name]);
    } else {
      assert r[2..] == [f.name];
    }
  }

  /** The mapping reads exactly the key fields: two descriptors share a path
      if and only if they agree on those, whatever their URLs, versions,
      globs, image names or credentials. */
  lemma DependsOnlyOnKeyFields(f: MinioObject, g: MinioObject)
    ensures GetRelativePath(f) == GetRelativePath(g) <==> SameKey(f, g)
  {
    if GetRelativePath(f) == GetRelativePath(g) && f.resourceType == PivnetTileTag {
      assert GetRelativePath(f)[2] == GetRelativePath(g)[2];
      assert f.productSlug + "-tarball" == g.productSlug + "-tarball";
      assert f.productSlug == (f.productSlug + "-tarball")[..|f.productSlug|];
      assert |f.productSlug| == |g.productSlug|;
    }
  }

  /** With well-formed key fields every segment of the path is well formed,
      so `filepath.Join`'s cleaning leaves it as it is. */
  lemma RelativePathValid(f: MinioObject)
    requires KeyFieldsValid(f)
    ensures ValidPath(GetRelativePath(f))
  {
    if f.resourceType == PivnetTileTag {
      var t := TarballSegment(f.productSlug);
      assert t[|t| - 1] == 'l';
      assert forall i | 0 <= i < |t| :: t[i] == '/' ==> i < |f.productSlug| && f.productSlug[i] == '/';
    }
  }

  /** Two well-formed descriptors get the same key string if and only if they
      agree on the key fields, so distinct artifacts never share an object. */
  lemma KeysDistinct(f: MinioObject, g: MinioObject)
    requires KeyFieldsValid(f) && KeyFieldsValid(g)
    ensures Render(GetRelativePath(f)) == Render(GetRelativePath(g)) <==> SameKey(f, g)
  {
    RelativePathValid(f);
    RelativePathValid(g);
    RenderInjective(GetRelativePath(f), GetRelativePath(g));
    DependsOnlyOnKeyFields(f, g);
  }

  /** The resource-type directory is the parent of the local artifact path for
      every type except tiles, whose archives sit one level deeper in
      `{productSlug}-tarball`. */
  lemma ResourceTypeDirIsParentUnlessTile(bitsDir: Path, f: MinioObject)
    ensures ResourceTypeDir(bitsDir, f) == Parent(bitsDir + GetRelativePath(f))
            <==> f.resourceType != PivnetTileTag
  {
    var local := bitsDir + GetRelativePath(f);
    if f.resourceType != PivnetTileTag {
      assert Parent(local) == bitsDir + ["resources", f.resourceType];
    } else {
      assert |Parent(local)| != |ResourceTypeDir(bitsDir, f)|;
    }
  }

  /** For every type the resource-type directory lies above the local artifact. */
  lemma ResourceTypeDirAboveArtifact(bitsDir: Path, f: MinioObject)
    ensures IsPrefix(ResourceTypeDir(bitsDir, f), bitsDir + GetRelativePath(f))
    ensures |bitsDir + GetRelativePath(f)| - |ResourceTypeDir(bitsDir, f)|
            == (if f.resourceType == PivnetTileTag then 2 else 1)
  {
    var local := bitsDir + GetRelativePath(f);
    assert local[..|bitsDir| + 2] == bitsDir + ["resources", f.resourceType];
  }
  /** The string `model.GetRelativePath` returns: Go's `filepath.Join` of
      the elements above, cleaned. */
  function GoRelativePath(f: MinioObject): string {
    JoinAll(GetRelativePath(f))
  }

  /** For well-formed key fields Go's cleaned string is the rendering of
      the segment model, so the segment properties above are properties of
      the program's result. */
  lemma GoRelativePathAgrees(f: MinioObject)
    requires KeyFieldsValid(f)
    ensures GoRelativePath(f) == Render(GetRelativePath(f))
  {
    RelativePathValid(f);
    JoinAllValid(GetRelativePath(f));
  }

  /** For well-formed key fields the program's key strings coincide if and
      only if the key fields agree. */
  lemma GoKeysDistinct(f: MinioObject, g: MinioObject)
    requires KeyFieldsValid(f) && KeyFieldsValid(g)
    ensures GoRelativePath(f) == GoRelativePath(g) <==> SameKey(f, g)
  {
    GoRelativePathAgrees(f);
    GoRelativePathAgrees(g);
    KeysDistinct(f, g);
  }

  /** An empty name is dropped by Go's cleaning, so the program's string
      names the resource-type directory while the segment model keeps an
      empty last segment. */
  lemma EmptyNameDropped(f: MinioObject)
    requires f.resourceType != PivnetTileTag && ValidSegment(f.resourceType) && f.name == ""
    ensures GoRelativePath(f) == "resources" + "/" + f.resourceType
    ensures Render(GetRelativePath(f)) == "resources" + "/" + f.resourceType + "/"
  {
    var dir: Path := ["resources", f.resourceType];
    assert GetRelativePath(f) == dir + [""];
    JoinAllDropsEmptyLast(dir);
    RenderCons("resources", [f.resourceType]);
  }
}

=== FILE: strings.dfy ===
/** The few operations of Go's `strings` package the core relies on. */
module Strings {

  /** `strings.HasPrefix(s, p)` */
  predicate HasPrefix(s: string, p: string) {
    |p| <= |s| && s[..|p|] == p
  }

  /** `strings.TrimPrefix(s, prefix)` */
  function TrimPrefix(s: string, prefix: string): (r: string)
    ensures HasPrefix(s, prefix) ==> prefix + r == s
    ensures !HasPrefix(s, prefix) ==> r == s
  {
    if HasPrefix(s, prefix) then s[|prefix|..] else s
  }

  /** Trimming the part before a separator leaves the separator and the
      rest. */
  lemma TrimBeforeSeparator(a: string, sep: string, b: string)
    ensures TrimPrefix(a + sep + b, a) == sep + b
  {
    var s := a + sep + b;
    assert s == a + (sep + b);
    assert s[..|a|] == a;
    assert s[|a|..] == sep + b;
  }

  /** `strings.Split(s, [c])[0]`: the part of `s` before the first `c`,
      or all of `s` when it holds no `c`. */
  function Before(s: string, c: char): (r: string)
    ensures HasPrefix(s, r)
    ensures c !in r
    ensures |r| < |s| ==> s[|r|] == c
    ensures c !in s ==> r == s
  {
    if |s| == 0 || s[0] == c then ""
    else
      var rest := Before(s[1..], c);
      assert s[1..][..|rest|] == rest;
      assert s[..|rest| + 1] == [s[0]] + s[1..][..|rest|];
      [s[0]] + rest
  }

  /** A string cut at a separator is the part before, the separator and the
      part after. */
  lemma CutAtSeparator(s: string, head: string, c: char)
    requires HasPrefix(s, head) && |head| < |s| && s[|head|] == c
    ensures s == head + [c] + s[|head| + 1..]
  {
    assert s == s[..|head|] + [s[|head|]] + s[|head| + 1..];
  }

  /** Before never looks past a first occurrence of `c`. */
  lemma {:induction false} BeforeStopsAtSeparator(a: string, c: char, b: string)
    requires c !in a
    ensures Before(a + [c] + b, c) == a
  {
    if |a| > 0 {
      assert (a + [c] + b)[1..] == a[1..] + [c] + b;
      BeforeStopsAtSeparator(a[1..], c, b);
    }
  }

  /** `sub` occurs in `s` starting at index `k`. */
  predicate OccursAt(s: string, sub: string, k: int) {
    0 <= k && k + |sub| <= |s| && s[k..k + |sub|] == sub
  }

  /** `strings.Contains(s, sub)`; the empty string occurs in every string. */
  predicate Contains(s: string, sub: string) {
    exists k | 0 <= k <= |s| - |sub| :: OccursAt(s, sub, k)
  }
}

=== FILE: upload.dfy ===
/** The upload command (commands/upload.go): check that every resource-type
    directory exists, make sure the bucket exists, then put each artifact
    under the key the path mapping gives it, stopping at the first failure. */
module Upload {
  import opened Outcomes
  import opened Paths
  import opened Bits
  import opened RelativePath
  import opened FailFast

  /** What `os.Stat` reports; only "does not exist" fails the pre-flight check. */
  datatype StatResult = Present | NotExist | StatError(msg: string)

  /** The command's flags; the bits directory is already split into segments. */
  datatype Config = Config(
    hostName: string,
    accessKey: string,
    secretAccessKey: string,
    bucket: string,
    bitsDir: Path)

  /** The arguments of one `FPutObject` call. */
  datatype PutRequest = PutRequest(bucket: string, key: Path, source: Path, contentType: string)

  /** A request the upload command makes before uploading anything. */
  datatype Call =
    | Stat(path: Path)
    | MakeBucket(bucket: string)
    | BucketExists(bucket: string)

  /** What one run of the command asked for, in order, and how it ended. */
  datatype UploadRun = UploadRun(calls: seq<Call>, puts: seq<PutRequest>, result: Outcome)

  /** How the filesystem and the object store answer; `putObject` yields the
      number of bytes sent. */
  datatype Store = Store(
    stat: Path -> StatResult,
    makeBucket: string -> Outcome,
    bucketExists: string -> Result<bool>,
    putObject: PutRequest -> Result<int>)

  /** The error `validateBits` returns for a missing directory, named by
      the string `filepath.Join` builds from its elements. */
  function NotPresent(dir: Path): string {
    JoinAll(dir) + " is not present"
  }

  /** For well-formed segments the message names the directory exactly as
      its segments read. */
  lemma NotPresentNamesDirectory(dir: Path)
    requires |dir| >= 1 && ValidPath(dir)
    ensures NotPresent(dir) == Render(dir) + " is not present"
  {
    JoinAllValid(dir);
  }

  /** Descriptor `k` is the first whose resource-type directory is missing. */
  predicate FirstMissing(bits: seq<MinioObject>, bitsDir: Path, stat: Path -> StatResult, k: int) {
    && 0 <= k < |bits|
    && stat(ResourceTypeDir(bitsDir, bits[k])).NotExist?
    && forall i | 0 <= i < k :: !stat(ResourceTypeDir(bitsDir, bits[i])).NotExist?
  }

  /** `validateBits`: stats the resource-type directory of each descriptor in
      order and reports the first that does not exist. */
  function ValidateBits(bits: seq<MinioObject>, bitsDir: Path, stat: Path -> StatResult): (r: Run<Call>)
    ensures r.result.Pass? <==>
      forall i | 0 <= i < |bits| :: !stat(ResourceTypeDir(bitsDir, bits[i])).NotExist?
    ensures r.result.Fail? ==>
      && FirstMissing(bits, bitsDir, stat, |r.steps| - 1)
      && r.result.msg == NotPresent(ResourceTypeDir(bitsDir, bits[|r.steps| - 1]))
    ensures |r.steps| <= |bits|
    ensures forall i | 0 <= i < |r.steps| :: r.steps[i] == Stat(ResourceTypeDir(bitsDir, bits[i]))
    ensures r.result.Pass? ==> |r.steps| == |bits|
  {
    Fold(bits,
         (f: MinioObject) => Stat(ResourceTypeDir(bitsDir, f)),
         (f: MinioObject) =>
           var dir := ResourceTypeDir(bitsDir, f);
           if stat(dir).NotExist? then Fail(NotPresent(dir)) else Pass)
  }

  /** The bucket step as written: when `MakeBucket` fails and `BucketExists`
      does not confirm ownership, the error logged is the inner, shadowing
      `err` from `BucketExists`, which is nil (`<nil>`) when the call itself
      succeeded. */
  function ProvisionBucketAsWritten(bucket: string, store: Store): (r: Run<Call>)
    ensures r.result.Pass? <==> store.makeBucket(bucket).Pass? || store.bucketExists(bucket) == Ok(true)
    ensures r.result.Fail? && store.bucketExists(bucket).Ok? ==> r.result.msg == "<nil>"
    ensures store.makeBucket(bucket).Fail? && store.bucketExists(bucket).Err? ==>
      r.result == Fail(store.bucketExists(bucket).msg)
    ensures r.steps == [MakeBucket(bucket)] + (if store.makeBucket(bucket).Fail? then [BucketExists(bucket)] else [])
  {
    match store.makeBucket(bucket)
    case Pass => Run([MakeBucket(bucket)], Pass)
    case Fail(_) =>
      var steps := [MakeBucket(bucket), BucketExists(bucket)];
      match store.bucketExists(bucket)
      case Ok(owned) => Run(steps, if owned then Pass else Fail("<nil>"))
      case Err(m) => Run(steps, Fail(m))
  }

  /** The bucket step with the `MakeBucket` error reported, as the
      ownership check around it intends. */
  function ProvisionBucket(bucket: string, store: Store): (r: Run<Call>)
    ensures r.result.Pass? <==> store.makeBucket(bucket).Pass? || store.bucketExists(bucket) == Ok(true)
    ensures r.result.Fail? ==> store.makeBucket(bucket) == r.result
    ensures r.steps == [MakeBucket(bucket)] + (if store.makeBucket(bucket).Fail? then [BucketExists(bucket)] else [])
  {
    match store.makeBucket(bucket)
    case Pass => Run([MakeBucket(bucket)], Pass)
    case Fail(m) =>
      var owned := store.bucketExists(bucket);
      Run([MakeBucket(bucket), BucketExists(bucket)], if owned == Ok(true) then Pass else Fail(m))
  }

  /** A creation refused for any reason, with the bucket then reported
      absent, exits with the message `<nil>` and the reason is lost. */
  lemma ProvisionLosesMakeBucketError(store: Store, bucket: string)
    requires store.makeBucket(bucket) == Fail("Access Denied.")
    requires store.bucketExists(bucket) == Ok(false)
    ensures ProvisionBucketAsWritten(bucket, store).result == Fail("<nil>")
    ensures ProvisionBucket(bucket, store).result == Fail("Access Denied.")
  {
  }

  /** The local file and the key of one upload, computed as the loop body
      does: resource-type directory, then the tarball directory for tiles,
      then the name. */
  function PutRequestFor(cfg: Config, f: MinioObject): PutRequest {
    var filePath := cfg.bitsDir + ["resources", f.resourceType];
    var bucketPath := ["resources", f.resourceType];
    var filePath' := if f.resourceType == PivnetTileTag then filePath + [TarballSegment(f.productSlug)] else filePath;
    var bucketPath' := if f.resourceType == PivnetTileTag then bucketPath + [TarballSegment(f.productSlug)] else bucketPath;
    PutRequest(cfg.bucket, bucketPath' + [f.name], filePath' + [f.name], f.contentType)
  }

  /** The uploader's key is the path mapping's relative path, and the file it
      reads is that same path under the bits directory, so it finds exactly
      what packaging wrote there. */
  lemma PutRequestMatchesRelativePath(cfg: Config, f: MinioObject)
    ensures PutRequestFor(cfg, f).key == GetRelativePath(f)
    ensures PutRequestFor(cfg, f).source == cfg.bitsDir + GetRelativePath(f)
    ensures PutRequestFor(cfg, f).bucket == cfg.bucket
    ensures PutRequestFor(cfg, f).contentType == f.contentType
  {
  }

  /** The object store accepts the upload of `f`. */
  predicate PutSucceeds(cfg: Config, store: Store, f: MinioObject) {
    PutAnswer(cfg, store, f).Pass?
  }

  /** How the upload of `f` ends: `check` makes any put error fatal. */
  function PutAnswer(cfg: Config, store: Store, f: MinioObject): Outcome {
    match store.putObject(PutRequestFor(cfg, f))
    case Err(m) => Fail(m)
    case Ok(_) => Pass
  }

  /** The upload loop: one put per descriptor in manifest order, stopping at
      the first failing put. */
  function UploadFiles(cfg: Config, store: Store, bits: seq<MinioObject>): (r: Run<PutRequest>)
    ensures |r.steps| <= |bits|
    ensures forall i | 0 <= i < |r.steps| :: r.steps[i] == PutRequestFor(cfg, bits[i])
    ensures r.result.Pass? <==> forall i | 0 <= i < |bits| :: PutSucceeds(cfg, store, bits[i])
    ensures r.result.Pass? ==> |r.steps| == |bits|
    ensures r.result.Fail? ==>
      && |r.steps| > 0
      && PutAnswer(cfg, store, bits[|r.steps| - 1]) == r.result
      && forall i | 0 <= i < |r.steps| - 1 :: PutSucceeds(cfg, store, bits[i])
  {
    Fold(bits, f => PutRequestFor(cfg, f), f => PutAnswer(cfg, store, f))
  }

  /** Which bucket step a run takes: the code as written, or the one that
      reports the creation error. */
  datatype Variant = AsWritten | Corrected

  function BucketStep(variant: Variant, bucket: string, store: Store): (r: Run<Call>)
    ensures r.result.Pass? <==> store.makeBucket(bucket).Pass? || store.bucketExists(bucket) == Ok(true)
    ensures r.steps == [MakeBucket(bucket)] + (if store.makeBucket(bucket).Fail? then [BucketExists(bucket)] else [])
  {
    if variant == AsWritten then ProvisionBucketAsWritten(bucket, store) else ProvisionBucket(bucket, store)
  }

  /** `UploadBitsCommand.Execute` after the manifest is read: pre-flight
      check, bucket step, upload loop. */
  method Execute(variant: Variant, cfg: Config, bits: seq<MinioObject>, store: Store) returns (r: UploadRun)
    ensures |r.puts| <= |bits|
    ensures r.result.Pass? <==>
      && (forall i | 0 <= i < |bits| :: !store.stat(ResourceTypeDir(cfg.bitsDir, bits[i])).NotExist?)
      && (store.makeBucket(cfg.bucket).Pass? || store.bucketExists(cfg.bucket) == Ok(true))
      && (forall i | 0 <= i < |bits| :: PutSucceeds(cfg, store, bits[i]))
    ensures ValidateBits(bits, cfg.bitsDir, store.stat).result.Fail? ==>
      && r.result == ValidateBits(bits, cfg.bitsDir, store.stat).result
      && r.puts == []
      && r.calls == ValidateBits(bits, cfg.bitsDir, store.stat).steps
      && forall i | 0 <= i < |r.calls| :: r.calls[i].Stat?
    ensures ValidateBits(bits, cfg.bitsDir, store.stat).result.Pass? && BucketStep(variant, cfg.bucket, store).result.Fail? ==>
      r.puts == [] && r.result == BucketStep(variant, cfg.bucket, store).result
    ensures variant == AsWritten && ValidateBits(bits, cfg.bitsDir, store.stat).result.Pass?
            && store.makeBucket(cfg.bucket).Fail? && store.bucketExists(cfg.bucket) == Ok(false) ==>
      r.result == Fail("<nil>")
    ensures ValidateBits(bits, cfg.bitsDir, store.stat).result.Pass? ==>
      r.calls == ValidateBits(bits, cfg.bitsDir, store.stat).steps + BucketStep(variant, cfg.bucket, store).steps
    ensures ValidateBits(bits, cfg.bitsDir, store.stat).result.Pass? && BucketStep(variant, cfg.bucket, store).result.Pass? ==>
      r.puts == UploadFiles(cfg, store, bits).steps && r.result == UploadFiles(cfg, store, bits).result
    ensures r.result.Pass? ==> |r.puts| == |bits|
    ensures r.result.Fail? && r.puts != [] ==>
      && PutAnswer(cfg, store, bits[|r.puts| - 1]) == r.result
      && forall i | 0 <= i < |r.puts| - 1 :: PutSucceeds(cfg, store, bits[i])
    ensures r.puts != [] ==> MakeBucket(cfg.bucket) in r.calls
    ensures forall i | 0 <= i < |r.puts| :: r.puts[i] == PutRequestFor(cfg, bits[i])
  {
    var checked := ValidateBits(bits, cfg.bitsDir, store.stat);
    if checked.result.Fail? {
      return UploadRun(checked.steps, [], checked.result);
    }
    var bucket := BucketStep(variant, cfg.bucket, store);
    if bucket.result.Fail? {
      return UploadRun(checked.steps + bucket.steps, [], bucket.result);
    }
    var uploaded := UploadFiles(cfg, store, bits);
    r := UploadRun(checked.steps + bucket.steps, uploaded.steps, uploaded.result);
  }
}
